=== FILE: README.md ===
# S3 metastore and ETL helpers, modelled in Dafny

This project models the in-memory catalogue that describes where tables live in S3, together with the
small pure helpers that the ETL jobs share. Every operation is a pure function or a method without heap
state. Each registration returns the updated registry instead of mutating it.

- `Timestamps` covers `datetime.strptime` for the run-date format `%Y-%m-%dT%H:%M:%S` and the day format
  `%Y-%m-%d`. It checks field widths and ranges, month lengths and leap years. It also covers the
  `strftime` renderings `%Y` (four digits) and `%m`/`%d`/`%H`/`%M`/`%S` (two digits).
- `PartitionFormat` covers `MetaUtils`, which writes labelled partitions like `year=2018/month=11/day=03`,
  and `KinesisPartitionFormatter`, which writes bare ones like `2018/11/03`.
- `S3Path` covers `parse_s3_path`, i.e. `urllib.parse.urlparse` reduced to the bucket (the authority) and
  the key (the path without its first character).
- `Tables` covers `Table`, `S3Table`, `KinesisTable` and `S3TableWithPartition`: `path`,
  `partition_path`, `bucket`, `sub_prefix`, `path_by_vals`, `s3_bucket_key`, `attach` and
  `attached_path`.
- `Catalog` covers `Database` (`register_table`, `get_table`, `unregister_table`, `get_tables`) and
  `Metastore` (`register_database`, `get_database`, `register_table`, `get_table`). The metastore's
  class-level dictionary is modelled as a map from names to databases.
- `Utils` covers `convert_to_d_h_m_s`, `seconds_to_string`, `make_batches_from_pool`, `_chunked`,
  `chunk_maker`, `generate_time_series_from_day` and `gp_validate_date`.
- `Text`, `Decimal`, `Wrappers` and `Errors` are supporting modules:
  - splitting and joining on one character;
  - decimal digits and zero padding;
  - `Option` and `Result`;
  - the Python exceptions the code raises, as values.

Python generators are modelled as the full list they yield. Exceptions are modelled as a `Failure`
carrying the exception kind.

The source's default arguments are kept as Dafny default parameter values:

- `schema=None` and `partitiontype="ymd"` of `Table`, and `partition_type="ymdh"` of `KinesisTable`;
- `rdate=None` of `path` and `partition_path`, and `schema=None` of `S3TableWithPartition`;
- `separator="="` and `filename=None` of the partitioned-table methods;
- `custom_partition_type=None` of `register_table`;
- `batch_size=5` and `chunk_size=5`.

## Model

| member | source | states |
|---|---|---|
| Timestamps.ParseTimestamp | s3/s3metastore.py:10 | Any date `strptime` accepts with the run-date format is a real calendar date: year 1..9999, the month's length respected, hour, minute and second in range. |
| Timestamps.ParseDay | shared/utils.py:48 | Any date accepted with `%Y-%m-%d` is a valid date at midnight. |
| Timestamps.ParseTimestampRoundTrip | s3/s3metastore.py:10 | Parsing the canonical `YYYY-MM-DDTHH:MM:SS` rendering of any valid date gives back that date. |
| Timestamps.ParseDayRoundTrip | shared/utils.py:48 | Parsing the `YYYY-MM-DD` rendering of any valid day gives back that day. |
| Timestamps.YearFieldOfPad | s3/s3metastore.py:25 | The four-digit `%Y` rendering of a year in 1..9999 is read back by `%Y` as that year. |
| Timestamps.ShortFieldOfPad | s3/s3metastore.py:27-29 | A two-digit field is read back as its value whenever that value is in the field's range. |
| Decimal.PadValue | s3/s3metastore.py:25-29 | A zero-padded number has exactly the requested width and denotes the number itself. |
| Decimal.IntToStringRoundTrip | shared/utils.py:81 | `str()` of any integer, negative ones included, parses back to that integer. |
| PartitionFormat.LabelledDatePath | s3/s3metastore.py:21-30 | `MetaUtils.generate_run_date_path` on a parsed date: `year=YYYY/month=MM/day=DD`. Each of these formatters takes a date already parsed, because the `strptime` call of the Python method happens once, in `Tables.PathWithDialect`. `FragmentIsJoin`, `FragmentSegments` and `FragmentRoundTrip` state the output. |
| PartitionFormat.LabelledDateHourPath | s3/s3metastore.py:33-44 | `MetaUtils.generate_run_date_hour_path` on a parsed date: the daily path followed by `/hour=HH`. The output is stated by `FragmentIsJoin` and `FragmentRoundTrip`. |
| PartitionFormat.LabelledYearMonth | s3/s3metastore.py:47-54 | `MetaUtils.generate_run_year_month` on a parsed date: `year=YYYY/month=MM`. The output is stated by `FragmentIsJoin` and `FragmentRoundTrip`. |
| PartitionFormat.UnlabelledDatePath | s3/s3metastore.py:64-68 | `KinesisPartitionFormatter.generate_run_date_path` on a parsed date: `YYYY/MM/DD`. The output is stated by `FragmentIsJoin` and `FragmentRoundTrip`. |
| PartitionFormat.UnlabelledDateHourPath | s3/s3metastore.py:71-78 | `KinesisPartitionFormatter.generate_run_date_hour_path` on a parsed date: `YYYY/MM/DD/HH`. The output is stated by `FragmentIsJoin` and `FragmentRoundTrip`. |
| PartitionFormat.UnlabelledYearMonth | s3/s3metastore.py:81-83 | `KinesisPartitionFormatter.generate_run_year_month` on a parsed date: `YYYY/MM`. The output is stated by `FragmentIsJoin` and `FragmentRoundTrip`. |
| PartitionFormat.Fragment | s3/s3metastore.py:169-188 | The formatter that `path` picks for a partition depth (2 for `ym` and `y`, 3 for `ymd`, 4 for `ymdh`) in either dialect. The output is stated by `FragmentIsJoin` and `FragmentRoundTrip`. |
| PartitionFormat.FragmentIsJoin | s3/s3metastore.py:21-54 | The labelled and bare year-month, date and date-hour paths are their per-field segments joined by `/`. |
| PartitionFormat.FragmentSegments | s3/s3metastore.py:62-83 | Splitting a partition path at `/` gives exactly its 2, 3 or 4 field segments. |
| PartitionFormat.UnlabelledDropsLabels | s3/s3metastore.py:62-83 | The Kinesis formatter writes the same segments as `MetaUtils`, with the `year=`, `month=`, `day=`, `hour=` labels removed. |
| PartitionFormat.FragmentRoundTrip | s3/s3metastore.py:21-54 | The year, month, day and hour are read back from the segments of a formatted partition path, in order and up to its depth. |
| S3Path.ParseS3Path | s3/s3api.py:190-198 | The bucket never contains `/`, `?` or `#`, and the key never contains `?` or `#`. |
| S3Path.ParseObjectUri | s3/s3api.py:65 | Parsing `s3://bucket/key` gives back the bucket and the key, for any bucket without `/?#` and any key without `?#`. |
| S3Path.ParseBucketOnly | s3/s3api.py:196-198 | `s3://bucket` gives that bucket and the empty key. |
| S3Path.ParseBucketSlash | s3/s3api.py:196-198 | `s3://bucket/` also gives that bucket and the empty key. |
| S3Path.ParseWithoutAuthority | s3/s3api.py:196-198 | A non-empty string with no `:`, `?` or `#` that does not start with `//`, such as the absolute path `/data/warehouse/orders`, has an empty bucket, and its key drops the first character whatever it is. |
| Tables.NewKinesisTable | s3/s3metastore.py:251-254 | The Kinesis constructor keeps the root, name and partition type, and drops the schema. |
| Tables.ConstructorDefaults | s3/s3metastore.py:105 | Without a partition type, a `KinesisTable` is partitioned `"ymdh"` (line 252) and a `Table` is partitioned `"ymd"`. |
| Tables.PathOn | s3/s3metastore.py:164-190 | Without a run date the path is `root/name`. With a date and no partition type it is also exactly `root/name`. The result is `None` exactly when a date is given and the partition type is unrecognised. Every path starts with `root/name`. |
| Tables.PathWithDialect | s3/s3metastore.py:164-190 | A malformed run date raises exactly when the partition type is one of `ymd`, `ymdh`, `ym`, `y`. Otherwise a parsed date gives the path of that date. With no partition type any run date gives `root/name`, and with an unrecognised type any run date gives `None`, because the date is never parsed. |
| Tables.Path | s3/s3metastore.py:164-190 | `Table.path`, and `KinesisTable.path` for a Kinesis table: `PathWithDialect` with the kind's dialect, `rdate` defaulting to `None`. With no run date it is `root/name`, it raises only for a given run date and only with that date, and every path starts with `root/name`. |
| Tables.PartitionPath | s3/s3metastore.py:136-162 | `partition_path`: `PathWithDialect` with labelled segments for every kind of table, with the same three properties as `Path`. |
| Tables.PathWithoutRunDate | s3/s3metastore.py:136-167 | `partition_path()` (lines 138-139) and `path()` (lines 166-167, and lines 258-259 for `KinesisTable`) with no run date are both `root/name`, for every table kind. |
| Tables.PartitionPathAgrees | s3/s3metastore.py:136-190 | For `Table` and `S3Table`, `partition_path` and `path` agree on every input. |
| Tables.YearLikeYearMonth | s3/s3metastore.py:184-188 | A `"y"` table is laid out exactly like a `"ym"` table, including the month segment. |
| Tables.DatePathSegments | s3/s3metastore.py:169-188 | A dated path splits into the parts of `root/name` followed by one segment per date field of the partition type. |
| Tables.DatePathRoundTrip | s3/s3metastore.py:169-188 | The run date's fields are read back from the last segments of a dated path. |
| Tables.KinesisPathDropsLabels | s3/s3metastore.py:256-293 | A Kinesis path has the same parts as the labelled path, with each date label removed. |
| Tables.PathOfFormattedDate | s3/s3metastore.py:164-190 | A well-formed run-date string selects the path of exactly the date it spells. |
| Tables.Bucket | s3/s3metastore.py:131-134 | `bucket()`: the authority of `root/name`, which never contains `/`, `?` or `#` (`TableLocation` and `TableAtBucketRoot` give its value). |
| Tables.SubPrefix | s3/s3metastore.py:126-129 | `sub_prefix()`: the key of `root/name`, which never contains `?` or `#` (`TableLocation` and `TableAtBucketRoot` give its value). |
| Tables.TableLocation | s3/s3metastore.py:126-134 | A table rooted at `s3://bucket/prefix` reports that bucket, and `prefix/name` as its sub-prefix. |
| Tables.TableAtBucketRoot | s3/s3metastore.py:126-134 | A table rooted at the bare bucket `s3://bucket` reports that bucket, and its own name as its sub-prefix. |
| Tables.NewPartitionedTable | s3/s3metastore.py:206-216 | A new partitioned table has the default `"ymd"` type, keeps its descriptor and has nothing attached. |
| Tables.Pairs | s3/s3metastore.py:224-227 | `zip` stops at the shorter list, and pair `i` is key `i`, then the separator, then value `i`. |
| Tables.PathByVals | s3/s3metastore.py:218-229 | `path_by_vals`, with `separator` defaulting to `=`: the path always starts with `root/name/`. `PathByValsSegments` states its parts. |
| Tables.PathByValsSegments | s3/s3metastore.py:218-229 | `path_by_vals` splits into the parts of `root/name` and one part per zipped pair. With no pairs the path ends in a bare `/`. |
| Tables.S3BucketKey | s3/s3metastore.py:231-237 | `s3_bucket_key`: the bucket never contains `/`. `S3BucketKeyOf` states the bucket and the key exactly. |
| Tables.S3BucketKeyOf | s3/s3metastore.py:231-237 | `s3_bucket_key` gives the root's bucket and the key `prefix/name/pairs`, with `/filename` appended only for a truthy file name. |
| Tables.Attach | s3/s3metastore.py:239-244 | `attach` keeps the table and its descriptor. `AttachThenRead` and `AttachOverwrites` state what it records. |
| Tables.AttachedPath | s3/s3metastore.py:246-248 | `attached_path()`: the path the last `attach` cached, or `None` before any. `NewPartitionedTable` and `AttachThenRead` state both cases. |
| Tables.AttachThenRead | s3/s3metastore.py:239-248 | After `attach`, `attached_path()` is `path_by_vals` of the attached values, and attaching changes no later `path_by_vals`. |
| Tables.AttachOverwrites | s3/s3metastore.py:239-244 | A second `attach` replaces the first entirely. |
| Catalog.NewDatabase | s3/s3metastore.py:302-308 | A new database keeps the name and root path it is given (lines 304, 307), and has no tables, no schema store and the default partition type `"ymd"`. |
| Catalog.RegisterS3Table | s3/s3metastore.py:322-334 | Registers the named table at the database root, using the custom partition type when it is truthy and the default otherwise. It replaces only that name. |
| Catalog.RegisterTableAsWritten | s3/s3metastore.py:336-340 | `register_table` fails with `TypeError` exactly when the schema store is `None`. |
| Catalog.RegisterTableAlwaysRaises | s3/s3metastore.py:302-308 | On any database built by the constructor, `register_table` raises. |
| Catalog.GetTable | s3/s3metastore.py:342-345 | The table when the name is registered, `None` otherwise. |
| Catalog.UnregisterTable | s3/s3metastore.py:364-367 | Removes that name only, keeps the name, root, schema store and default type, and leaves the database unchanged when the name is absent. |
| Catalog.GetTables | s3/s3metastore.py:347-354 | The names yielded are exactly those `get_table` finds. |
| Catalog.RegistryPreservesWellFormed | s3/s3metastore.py:322-367 | Registering and unregistering keep every table under its own name at the database root. |
| Catalog.RegisterDefaultsToYmd | s3/s3metastore.py:324-332 | A table registered without a truthy custom type in a new database is partitioned `"ymd"`. |
| Catalog.UnregisterUndoesRegister | s3/s3metastore.py:322-367 | Registering a new name and then unregistering it gives back the original database. |
| Catalog.RegisterDatabase | s3/s3metastore.py:417-420 | The name maps to the new database and every other name is unchanged. |
| Catalog.GetDatabase | s3/s3metastore.py:422-423 | The database when the name is registered, `KeyError` otherwise. |
| Catalog.RegisterTableIn | s3/s3metastore.py:440-451 | The corrected registration through the metastore: an unknown database raises `KeyError` (line 449); otherwise only that database changes, and it gains the table. |
| Catalog.RegisterTableInAsWritten | s3/s3metastore.py:440-451 | The registration as written: an unknown database raises `KeyError`, and a known one raises `TypeError` exactly when its schema store is `None`. |
| Catalog.RegisterTableInAlwaysRaises | s3/s3metastore.py:449-450 | Through the metastore, registering a table in any database the constructor built raises `TypeError`. |
| Catalog.GetTableIn | s3/s3metastore.py:456-460 | Finds the table, or raises `KeyError` for the missing database or for the missing table. |
| Catalog.SecondRegistrationWins | s3/s3metastore.py:417-423 | Registering a database name twice keeps only the second database and only its tables. |
| Catalog.RegisteredTableIsFound | s3/s3metastore.py:440-460 | A table registered through the metastore is found through it, with the partition type it was given. |
| Utils.ConvertToDHMS | shared/utils.py:66-76 | Days, hours, minutes and seconds add back up to the input. Hours are in 0..23 and minutes and seconds in 0..59, negative inputs included. |
| Utils.ConvertToDHMSUnique | shared/utils.py:66-76 | That decomposition is the only one with those bounds. |
| Utils.SecondsToString | shared/utils.py:79-83 | `seconds_to_string`: the words `<d> days, <h> hours, <m> minutes, <s> seconds` of the decomposition. `SecondsToStringRoundTrip` states that the sentence reads back as exactly that decomposition. |
| Utils.SecondsToStringRoundTrip | shared/utils.py:79-83 | The rendered sentence reads back as exactly the decomposition of the input. |
| Utils.Chunked | shared/utils.py:99-113 | A negative size raises `ValueError`, and size zero yields nothing. A positive size yields chunks that concatenate back to the input. |
| Utils.ChunksSizes | shared/utils.py:107-113 | Every chunk is non-empty and at most `n` long, and every chunk but the last is exactly `n` long. |
| Utils.ChunksCount | shared/utils.py:107-113 | There are `ceil(len / n)` chunks. |
| Utils.SliceBatches | shared/utils.py:62-63 | Slicing at `0, step, 2*step, …` gives exactly the chunks of `_chunked`. |
| Utils.MakeBatches | shared/utils.py:55-63 | A zero batch size raises `ValueError` and a negative one yields nothing. Otherwise the batches concatenate to the pool, there are `ceil(len / size)` of them, all full but the last, and they equal `_chunked`'s. |
| Utils.TakeRounds | shared/utils.py:118-126 | `len // size + 1` chunks that concatenate to the data, all full but the last, which holds the remainder. |
| Utils.ChunkMaker | shared/utils.py:116-128 | Size zero raises `ZeroDivisionError`. A negative size yields one empty chunk for empty data and nothing otherwise. A positive size yields the rounds described for `TakeRounds`. |
| Utils.ChunkedDivisible | shared/utils.py:99-128 | When the size divides the length, `_chunked` gives `len / n` chunks, one fewer than the `len // n + 1` rounds of `chunk_maker`. |
| Utils.ChunkedRemainder | shared/utils.py:99-128 | Otherwise both give the same number of chunks and the same final remainder. |
| Utils.TimeSeriesFromDay | shared/utils.py:42-52 | A malformed day raises. Otherwise there are 24 stamps, and stamp `i` is hour `i` of that day. |
| Utils.HourStampReadsBack | shared/utils.py:50-51 | Splitting a stamp at `-` reads back the year, month, day and hour. |
| Utils.HourStampsDistinct | shared/utils.py:50-51 | Two hours of a day give the same stamp if and only if they are the same hour. |
| Utils.ValidateDate | shared/utils.py:19-27 | Returns the string unchanged exactly when `strptime` accepts it, and otherwise raises an `ETLException` constructed with the message `Not a valid date: '<input>'.`. |
| Utils.ValidateFormattedDate | shared/utils.py:19-27 | Every canonical rendering of a valid date passes validation. |

## Left out

- The DynamoDB and Redshift modules and the rest of s3/s3api.py (listing, reading and writing objects) are not part of this model, because they only call AWS services.
- `SchemaResource`, `Table.get_table_schema_column_list`, `Database.show`, `Metastore.list_databases`, `Table.meta` and `Database.isPartitionNone` are left out. They read files, print, or format or return fields for display.
- `Table.prefix` is left out, because its lower-casing needs Unicode case mapping. `Database.table_path` is left out because it calls `Table(tablename)` with a missing argument and so always raises. `Metastore.metainfo` is left out because it only looks up the literal key `"database"`.
- `oscmd_rmfile`, `get_runtime_date`, `get_timestamp`, `replace_timezone` and `convert_timezone` are left out: they use the file system, the clock and time zones.
- `extract_from_string_with_format` is left out, because it takes an arbitrary `strftime` format.
- `KinesisTable.path` also accepts a `pandas.Timestamp` and formats it first. Only string run dates are modelled.
- `Metastore.get_catalog` is the same lookup as `get_database`, and is covered by `Catalog.GetDatabase`.
- `S3Table` adds nothing to `Table`, so both are `Tables.Table` with kind `Plain`.
- Exception messages are not modelled, except for `gp_validate_date`'s. A `strptime` failure carries only the rejected string.
- Timestamps.ParseTimestamp, Timestamps.ParseDay, Utils.TimeSeriesFromDay and Utils.ValidateDate: accept only ASCII digits, whereas `strptime`'s `\d` also matches other Unicode decimal digits.
- PartitionFormat.LabelledDatePath, PartitionFormat.LabelledDateHourPath, PartitionFormat.LabelledYearMonth, PartitionFormat.UnlabelledDatePath, PartitionFormat.UnlabelledDateHourPath, PartitionFormat.UnlabelledYearMonth, Timestamps.FormatDay, Timestamps.FormatTimestamp and Utils.HourStamp: always pad `%Y` to four digits. For years below 1000 the platform `strftime` may not pad.
- S3Path.ParseS3Path: requires the input to be ASCII without `;`, `[`, `]`, tabs or line breaks, and without leading spaces or control characters. For such inputs `urlparse` strips, splits parameters or validates IPv6 authorities, which is not modelled.
- Tables.Bucket, Tables.SubPrefix and Tables.S3BucketKey: inherit that input restriction.
- Utils.ConvertToDHMS: takes an integer. `int(total_seconds)` truncation of a float is not modelled.
- Utils.SecondsToString: is the space-joined words of the format. This is the same string as the format's output.
- Catalog.RegisterDatabase: databases are values, so sharing one `Database` object between two names, or with the caller, is not modelled. In the source, a table registered or unregistered through one name is also seen through the other. Here each name holds its own copy.
- Catalog.GetTables: returns the set of names. The dictionary's insertion order is not modelled.
- Utils.MakeBatches and Utils.ChunkMaker: return lists of lists in place of generators of iterators. Laziness is not modelled.

## Findings

| source | as written | input that shows it | evidently intended | confidence | as-written member | corrected member |
|---|---|---|---|---|---|---|
| s3/s3metastore.py:336-340 | `register_table` builds the schema path with `os.path.join(self.schema_store, schema)`. The constructor sets `_schema_store` to `None` (line 306) and nothing assigns it later, so the join raises `TypeError`. `Metastore.register_table` (lines 440-451) inherits the failure. | `Database("db", "s3://b/p").register_table("t", "t.json")` | Registering a table stores it under its name, with the schema path resolved against the schema store | not executed | Catalog.RegisterTableAsWritten (with Catalog.RegisterTableAlwaysRaises), Catalog.RegisterTableInAsWritten (with Catalog.RegisterTableInAlwaysRaises) | Catalog.RegisterS3Table (used by Catalog.RegisterTableIn) |

=== FILE: catalog.dfy ===
/** `Database` and `Metastore` of s3/s3metastore.py as values: registering returns the updated registry. */
module Catalog {
  import opened Wrappers
  import opened Errors
  import opened Tables

  /** A database: its tables by name, the root they share and the partition type they default to. */
  datatype Database = Database(
    name: string,
    rootPath: string,
    schemaStore: Option<string>,
    defaultPartition: Option<string>,
    tables: map<string, Table>)

  /** `Database(name, rootpath)`: no tables, no schema store, default partition type `"ymd"`. */
  function NewDatabase(name: string, rootPath: string): (db: Database)
    ensures db.name == name && db.rootPath == rootPath
    ensures db.tables == map[] && db.schemaStore == None
    ensures Classify(db.defaultPartition) == Ymd
    ensures WellFormed(db)
  {
    Database(name, rootPath, None, Some("ymd"), map[])
  }

  /** Every table sits under its own name, at the database root, with labelled partitions. */
  ghost predicate WellFormed(db: Database)
  {
    forall n :: n in db.tables ==> db.tables[n].name == n && db.tables[n].root == db.rootPath && db.tables[n].kind == Plain
  }

  /** `_register_s3_table(table_name, fqs_path, custom_partition_type)`: stores a `Table` at the database root
      with the custom partition type when it is truthy and the default one otherwise, replacing any table of
      the same name and leaving the other tables alone. */
  function RegisterS3Table(db: Database, tableName: string, fqsPath: string, custom: Option<string>): (r: Database)
    ensures r.name == db.name && r.rootPath == db.rootPath && r.schemaStore == db.schemaStore
    ensures r.defaultPartition == db.defaultPartition
    ensures r.tables.Keys == db.tables.Keys + {tableName}
    ensures forall n :: n in db.tables && n != tableName ==> r.tables[n] == db.tables[n]
    ensures var t := r.tables[tableName];
            && t.name == tableName && t.root == db.rootPath && t.schema == Some(fqsPath) && t.kind == Plain
            && t.partitionTag == (if Truthy(custom) then custom else db.defaultPartition)
  {
    var partitionType := if Truthy(custom) then custom else db.defaultPartition;
    db.(tables := db.tables[tableName := Table(db.rootPath, tableName, Some(fqsPath), partitionType, Plain)])
  }

  /** `os.path.join(a, b)` of two strings: an absolute `b` replaces `a`; otherwise a `/` goes between them
      unless `a` is empty or already ends in one. */
  function PosixJoin(a: string, b: string): (r: string)
    ensures |b| > 0 && b[0] == '/' ==> r == b
  {
    if |b| > 0 && b[0] == '/' then b
    else if |a| == 0 || a[|a| - 1] == '/' then a + b
    else a + "/" + b
  }

  /** `register_table` as written: `os.path.join(self.schema_store, schema)` raises `TypeError` while the
      schema store is `None`, which the constructor leaves it and nothing ever changes. */
  function RegisterTableAsWritten(db: Database, tableName: string, schema: string, custom: Option<string> := None): (r: Result<Database, Error>)
    ensures r.Failure? <==> db.schemaStore.None?
    ensures r.Failure? ==> r.error == TypeError
  {
    match db.schemaStore
    case None => Failure(TypeError)
    case Some(store) => Success(RegisterS3Table(db, tableName, PosixJoin(store, schema), custom))
  }

  /** Registering a table in a freshly built database always fails. */
  lemma RegisterTableAlwaysRaises(name: string, rootPath: string, tableName: string, schema: string, custom: Option<string>)
    ensures RegisterTableAsWritten(NewDatabase(name, rootPath), tableName, schema, custom) == Failure(TypeError)
  {
  }

  /** `get_table`: the table, or `None` when the name is absent. */
  function GetTable(db: Database, tableName: string): (r: Option<Table>)
    ensures r.Some? <==> tableName in db.tables
    ensures r.Some? ==> r.value == db.tables[tableName]
  {
    if tableName in db.tables then Some(db.tables[tableName]) else None
  }

  /** `unregister_table`: removes that name only, and does nothing when it is absent. */
  function UnregisterTable(db: Database, tableName: string): (r: Database)
    ensures r.tables.Keys == db.tables.Keys - {tableName}
    ensures forall n :: n in r.tables ==> r.tables[n] == db.tables[n]
    ensures tableName !in db.tables ==> r == db
    ensures r.name == db.name && r.rootPath == db.rootPath && r.defaultPartition == db.defaultPartition
            && r.schemaStore == db.schemaStore
  {
    if tableName in db.tables then db.(tables := db.tables - {tableName}) else db
  }

  /** `get_tables`: the registered table names (the generator walks the dict's keys). */
  function GetTables(db: Database): (names: set<string>)
    ensures forall n :: n in names <==> GetTable(db, n).Some?
  {
    db.tables.Keys
  }

  /** The registry operations keep every table under its own name at the database root. */
  lemma RegistryPreservesWellFormed(db: Database, tableName: string, fqsPath: string, custom: Option<string>)
    requires WellFormed(db)
    ensures WellFormed(RegisterS3Table(db, tableName, fqsPath, custom))
    ensures WellFormed(UnregisterTable(db, tableName))
  {
  }

  /** A table registered without a truthy custom type gets the default `"ymd"` of a new database. */
  lemma RegisterDefaultsToYmd(name: string, rootPath: string, tableName: string, fqsPath: string, custom: Option<string>)
    requires !Truthy(custom)
    ensures var t := GetTable(RegisterS3Table(NewDatabase(name, rootPath), tableName, fqsPath, custom), tableName);
            t.Some? && Classify(t.value.partitionTag) == Ymd
  {
  }

  /** Registering then unregistering a new name gives the registry back. */
  lemma UnregisterUndoesRegister(db: Database, tableName: string, fqsPath: string, custom: Option<string>)
    requires tableName !in db.tables
    ensures UnregisterTable(RegisterS3Table(db, tableName, fqsPath, custom), tableName) == db
  {
    var r := UnregisterTable(RegisterS3Table(db, tableName, fqsPath, custom), tableName);
    assert r.tables == db.tables;
  }

  /** `Metastore.metastore`: a class attribute, so one catalog serves every `Metastore` instance. No
      operation below takes an instance, because none of them reads one. */
  type Catalog = map<string, Database>

  /** `register_database`: last write wins. */
  function RegisterDatabase(catalog: Catalog, name: string, db: Database): (r: Catalog)
    ensures r.Keys == catalog.Keys + {name} && r[name] == db
    ensures forall n :: n in catalog && n != name ==> r[n] == catalog[n]
  {
    catalog[name := db]
  }

  /** `get_database` (and `get_catalog`, the same lookup): `KeyError` when the name is absent. */
  function GetDatabase(catalog: Catalog, name: string): (r: Result<Database, Error>)
    ensures r.Success? <==> name in catalog
    ensures r.Success? ==> r.value == catalog[name]
    ensures r.Failure? ==> r.error == KeyError(name)
  {
    if name in catalog then Success(catalog[name]) else Failure(KeyError(name))
  }

  /** `Metastore.register_table` as intended, built on the corrected registration `RegisterS3Table` with the
      fully qualified schema path given directly: `KeyError` for an unknown database, otherwise that database
      with the table registered. */
  function RegisterTableIn(catalog: Catalog, dbName: string, tableName: string, fqsPath: string, custom: Option<string> := None): (r: Result<Catalog, Error>)
    ensures r.Failure? <==> dbName !in catalog
    ensures r.Failure? ==> r.error == KeyError(dbName)
    ensures r.Success? ==> r.value.Keys == catalog.Keys
    ensures r.Success? ==> forall n :: n in catalog && n != dbName ==> r.value[n] == catalog[n]
    ensures r.Success? ==> r.value[dbName] == RegisterS3Table(catalog[dbName], tableName, fqsPath, custom)
  {
    var db :- GetDatabase(catalog, dbName);
    Success(catalog[dbName := RegisterS3Table(db, tableName, fqsPath, custom)])
  }

  /** `Metastore.register_table` as written: it hands over to `Database.register_table`, which raises
      `TypeError` for any database without a schema store. */
  function RegisterTableInAsWritten(catalog: Catalog, dbName: string, tableName: string, schema: string, custom: Option<string> := None): (r: Result<Catalog, Error>)
    ensures dbName !in catalog ==> r == Failure(KeyError(dbName))
    ensures dbName in catalog ==> (r.Failure? <==> catalog[dbName].schemaStore.None?)
    ensures dbName in catalog && r.Failure? ==> r.error == TypeError
    ensures r.Success? ==> r.value.Keys == catalog.Keys
    ensures r.Success? ==> forall n :: n in catalog && n != dbName ==> r.value[n] == catalog[n]
    ensures r.Success? ==> r.value[dbName]
                           == RegisterS3Table(catalog[dbName], tableName, PosixJoin(catalog[dbName].schemaStore.value, schema), custom)
  {
    var db :- GetDatabase(catalog, dbName);
    var updated :- RegisterTableAsWritten(db, tableName, schema, custom);
    Success(catalog[dbName := updated])
  }

  /** Through the metastore too, registering a table in any database the constructor built raises. */
  lemma RegisterTableInAlwaysRaises(catalog: Catalog, dbName: string, name: string, rootPath: string,
                                    tableName: string, schema: string, custom: Option<string>)
    requires dbName in catalog && catalog[dbName] == NewDatabase(name, rootPath)
    ensures RegisterTableInAsWritten(catalog, dbName, tableName, schema, custom) == Failure(TypeError)
  {
    RegisterTableAlwaysRaises(name, rootPath, tableName, schema, custom);
  }

  /** `Metastore.get_table`: unlike `Database.get_table`, a missing table raises `KeyError`. */
  function GetTableIn(catalog: Catalog, dbName: string, tableName: string): (r: Result<Table, Error>)
    ensures r.Success? <==> dbName in catalog && tableName in catalog[dbName].tables
    ensures r.Success? ==> r.value == catalog[dbName].tables[tableName]
    ensures dbName !in catalog ==> r == Failure(KeyError(dbName))
    ensures dbName in catalog && tableName !in catalog[dbName].tables ==> r == Failure(KeyError(tableName))
  {
    var db :- GetDatabase(catalog, dbName);
    if tableName in db.tables then Success(db.tables[tableName]) else Failure(KeyError(tableName))
  }

  /** Registering a database twice under one name keeps only the second: its tables, and only its tables,
      are found through the catalog. */
  lemma SecondRegistrationWins(catalog: Catalog, name: string, first: Database, second: Database, tableName: string)
    ensures var c := RegisterDatabase(RegisterDatabase(catalog, name, first), name, second);
            GetDatabase(c, name) == Success(second)
            && GetTableIn(c, name, tableName) == (if tableName in second.tables then Success(second.tables[tableName])
                                                  else Failure(KeyError(tableName)))
  {
  }

  /** A table registered through the catalog is found through it, with the type it was registered with. */
  lemma RegisteredTableIsFound(catalog: Catalog, dbName: string, tableName: string, fqsPath: string, custom: Option<string>)
    requires dbName in catalog
    ensures var r := RegisterTableIn(catalog, dbName, tableName, fqsPath, custom);
            r.Success? && GetTableIn(r.value, dbName, tableName).Success?
            && GetTableIn(r.value, dbName, tableName).value.partitionTag
               == (if Truthy(custom) then custom else catalog[dbName].defaultPartition)
  {
  }
}

=== FILE: decimal.dfy ===
/** Decimal rendering of integers: Python's `str(int)`, strftime's zero-padded fields, and reading digits back. */
module Decimal {
  import opened Wrappers

  predicate IsDigit(c: char)
  {
    '0' <= c <= '9'
  }

  predicate AllDigits(s: string)
  {
    forall i :: 0 <= i < |s| ==> IsDigit(s[i])
  }

  function DigitChar(d: nat): (c: char)
    requires d < 10
    ensures IsDigit(c) && c as int - '0' as int == d
  {
    ('0' as int + d) as char
  }

  function DigitValue(c: char): nat
    requires IsDigit(c)
  {
    c as int - '0' as int
  }

  function Pow10(k: nat): (p: nat)
    ensures p >= 1
  {
    if k == 0 then 1 else 10 * Pow10(k - 1)
  }

  /** The value of a string of ASCII digits, read most significant digit first. */
  function DigitsValue(s: string): nat
    requires AllDigits(s)
  {
    if |s| == 0 then 0 else 10 * DigitsValue(s[..|s| - 1]) + DigitValue(s[|s| - 1])
  }

  /** `str(n)` for a natural number: its shortest decimal rendering. */
  function NatToString(n: nat): (s: string)
    ensures 1 <= |s| && AllDigits(s)
    ensures |s| > 1 ==> s[0] != '0'
  {
    if n < 10 then [DigitChar(n)] else NatToString(n / 10) + [DigitChar(n % 10)]
  }

  /** `str(i)` for any integer: a minus sign before the digits of a negative number. */
  function IntToString(i: int): string
  {
    if i < 0 then "-" + NatToString(-i) else NatToString(i)
  }

  function Zeros(k: nat): (z: string)
    ensures |z| == k && AllDigits(z)
  {
    if k == 0 then "" else Zeros(k - 1) + "0"
  }

  /** `n` rendered with leading zeros to at least `width` digits, as strftime renders `%Y`, `%m`, `%d` and `%H`. */
  function Pad(n: nat, width: nat): (s: string)
    ensures AllDigits(s)
  {
    var digits := NatToString(n);
    (if |digits| < width then Zeros(width - |digits|) else "") + digits
  }

  /** Reads back what `IntToString` writes: an optional minus sign followed by at least one digit. */
  function ParseInt(s: string): (r: Option<int>)
    ensures r.Some? ==> |s| >= 1 && (r.value < 0 ==> s[0] == '-')
  {
    if |s| >= 2 && s[0] == '-' && AllDigits(s[1..]) then
      var magnitude: int := DigitsValue(s[1..]);
      Some(-magnitude)
    else if |s| >= 1 && AllDigits(s) then Some(DigitsValue(s))
    else None
  }

  /** Reading the rendering of a natural number gives the number back. */
  lemma {:induction false} NatToStringValue(n: nat)
    ensures DigitsValue(NatToString(n)) == n
  {
    if n >= 10 {
      NatToStringValue(n / 10);
      var s := NatToString(n);
      assert s[..|s| - 1] == NatToString(n / 10);
    }
  }

  /** A number below `10^k` needs at most `k` digits (for `k >= 1`). */
  lemma {:induction false} NatToStringLength(n: nat, k: nat)
    requires 1 <= k && n < Pow10(k)
    ensures |NatToString(n)| <= k
  {
    if n >= 10 {
      NatToStringLength(n / 10, k - 1);
    }
  }

  /** Leading zeros do not change the value of a digit string. */
  lemma {:induction false} LeadingZerosValue(k: nat, s: string)
    requires AllDigits(s)
    ensures AllDigits(Zeros(k) + s) && DigitsValue(Zeros(k) + s) == DigitsValue(s)
    decreases |s|, k
  {
    var z := Zeros(k) + s;
    if |s| == 0 {
      assert z == Zeros(k);
      ZerosValue(k);
    } else {
      LeadingZerosValue(k, s[..|s| - 1]);
      assert z[..|z| - 1] == Zeros(k) + s[..|s| - 1];
    }
  }

  /** A run of zeros reads as zero. */
  lemma {:induction false} ZerosValue(k: nat)
    ensures DigitsValue(Zeros(k)) == 0
  {
    if k > 0 {
      ZerosValue(k - 1);
      var z := Zeros(k);
      assert z[..|z| - 1] == Zeros(k - 1);
    }
  }

  /** A padded field reads back as the number it renders, and has exactly `width` digits when the number fits. */
  lemma PadValue(n: nat, width: nat)
    requires 1 <= width && n < Pow10(width)
    ensures |Pad(n, width)| == width
    ensures DigitsValue(Pad(n, width)) == n
  {
    var digits := NatToString(n);
    NatToStringLength(n, width);
    NatToStringValue(n);
    LeadingZerosValue(width - |digits|, digits);
    if |digits| == width {
      assert Zeros(0) + digits == digits;
    }
  }

  /** `ParseInt` inverts `IntToString` on every integer. */
  lemma IntToStringRoundTrip(i: int)
    ensures ParseInt(IntToString(i)) == Some(i)
  {
    if i < 0 {
      NatToStringValue(-i);
      var s := IntToString(i);
      assert s[1..] == NatToString(-i);
    } else {
      NatToStringValue(i);
    }
  }
}

=== FILE: errors.dfy ===
/** The exceptions the modelled code raises, as error values. */
module Errors {

  datatype Error =
    /** `ValueError` from `datetime.strptime`: `data` does not match the format or is not a calendar date. */
    | TimeDataMismatch(data: string)
    /** `ValueError` for a bad step or slice bound (`range(..., 0)`, `islice(it, -1)`). */
    | ValueError
    /** `ZeroDivisionError` from `//` by zero. */
    | ZeroDivisionError
    /** `KeyError` from indexing a dict that lacks `key`. */
    | KeyError(key: string)
    /** `TypeError` from `os.path.join` given `None`. */
    | TypeError
    /** `ETLException` (shared/etlexceptions.py) with its message. */
    | ETLException(message: string)
}

=== FILE: partition_format.dfy ===
/** The two partition-path dialects of s3/s3metastore.py: `MetaUtils` writes labelled segments
    (`year=2018/month=11/day=03`), `KinesisPartitionFormatter` writes bare ones (`2018/11/03`). */
module PartitionFormat {
  import opened Wrappers
  import opened Text
  import opened Decimal
  import opened Timestamps

  const YearPrefix := "year="
  const MonthPrefix := "month="
  const DayPrefix := "day="
  const HourPrefix := "hour="

  /** `MetaUtils.generate_run_date_path`. */
  function LabelledDatePath(d: RunDate): string
  {
    (YearPrefix + Pad(d.year, 4)) + "/" + (MonthPrefix + Pad(d.month, 2)) + "/" + (DayPrefix + Pad(d.day, 2))
  }

  /** `MetaUtils.generate_run_date_hour_path`. */
  function LabelledDateHourPath(d: RunDate): string
  {
    (YearPrefix + Pad(d.year, 4)) + "/" + (MonthPrefix + Pad(d.month, 2)) + "/" + (DayPrefix + Pad(d.day, 2))
    + "/" + (HourPrefix + Pad(d.hour, 2))
  }

  /** `MetaUtils.generate_run_year_month`. */
  function LabelledYearMonth(d: RunDate): string
  {
    (YearPrefix + Pad(d.year, 4)) + "/" + (MonthPrefix + Pad(d.month, 2))
  }

  /** `KinesisPartitionFormatter.generate_run_date_path`. */
  function UnlabelledDatePath(d: RunDate): string
  {
    Pad(d.year, 4) + "/" + Pad(d.month, 2) + "/" + Pad(d.day, 2)
  }

  /** `KinesisPartitionFormatter.generate_run_date_hour_path`. */
  function UnlabelledDateHourPath(d: RunDate): string
  {
    Pad(d.year, 4) + "/" + Pad(d.month, 2) + "/" + Pad(d.day, 2) + "/" + Pad(d.hour, 2)
  }

  /** `KinesisPartitionFormatter.generate_run_year_month`. */
  function UnlabelledYearMonth(d: RunDate): string
  {
    Pad(d.year, 4) + "/" + Pad(d.month, 2)
  }

  datatype Dialect = Labelled | Unlabelled

  /** The formatter of a dialect that writes `depth` segments: 2 (year, month), 3 (and day) or 4 (and hour). */
  function Fragment(dialect: Dialect, depth: nat, d: RunDate): string
    requires 2 <= depth <= 4
  {
    match dialect
    case Labelled => if depth == 2 then LabelledYearMonth(d) else if depth == 3 then LabelledDatePath(d) else LabelledDateHourPath(d)
    case Unlabelled => if depth == 2 then UnlabelledYearMonth(d) else if depth == 3 then UnlabelledDatePath(d) else UnlabelledDateHourPath(d)
  }

  /** The prefix of the `i`-th time field: year, month, day, hour. */
  function Label(i: nat): string
    requires i < 4
  {
    [YearPrefix, MonthPrefix, DayPrefix, HourPrefix][i]
  }

  /** The numeric values of the time fields, in path order. */
  function FieldNumbers(d: RunDate): seq<nat>
  {
    [d.year, d.month, d.day, d.hour]
  }

  function FieldNumber(d: RunDate, i: nat): nat
    requires i < 4
  {
    FieldNumbers(d)[i]
  }

  /** The `i`-th field as strftime pads it: four digits for the year, two for the others. */
  function FieldText(d: RunDate, i: nat): string
    requires i < 4
  {
    Pad(FieldNumber(d, i), if i == 0 then 4 else 2)
  }

  /** The segment a dialect writes for the `i`-th field. */
  function Segment(dialect: Dialect, d: RunDate, i: nat): string
    requires i < 4
  {
    if dialect == Labelled then Label(i) + FieldText(d, i) else FieldText(d, i)
  }

  /** The first `depth` segments of a dialect, in year-month-day-hour order. */
  function Segments(dialect: Dialect, depth: nat, d: RunDate): (segs: seq<string>)
    requires depth <= 4
    ensures |segs| == depth
  {
    [Segment(dialect, d, 0), Segment(dialect, d, 1), Segment(dialect, d, 2), Segment(dialect, d, 3)][..depth]
  }

  /** Reads field values back from path segments, removing the labels the dialect writes. */
  function ReadSegments(dialect: Dialect, segs: seq<string>): (r: Option<seq<nat>>)
    requires |segs| <= 4
    ensures r.Some? ==> |r.value| == |segs|
    decreases |segs|
  {
    if |segs| == 0 then Some([])
    else
      var init :- ReadSegments(dialect, segs[..|segs| - 1]);
      var last := segs[|segs| - 1];
      var prefix := if dialect == Labelled then Label(|segs| - 1) else "";
      if |prefix| <= |last| && last[..|prefix|] == prefix && |last| > |prefix| && AllDigits(last[|prefix|..]) then
        Some(init + [DigitsValue(last[|prefix|..])])
      else None
  }

  /** No segment holds a `/`: labels are letters and `=`, field texts are digits. */
  lemma SegmentNoSlash(dialect: Dialect, d: RunDate, i: nat)
    requires i < 4
    ensures '/' !in Segment(dialect, d, i)
  {
    var t := FieldText(d, i);
    assert '/' !in t by {
      assert forall j :: 0 <= j < |t| ==> IsDigit(t[j]);
    }
    if dialect == Labelled {
      assert '/' !in Label(i);
    }
  }

  lemma SegmentsSeparable(dialect: Dialect, depth: nat, d: RunDate)
    requires depth <= 4
    ensures Separable(Segments(dialect, depth, d), '/')
  {
    forall i | 0 <= i < depth
      ensures '/' !in Segments(dialect, depth, d)[i]
    {
      SegmentNoSlash(dialect, d, i);
    }
  }

  lemma JoinOfTwo(a: string, b: string)
    ensures Join([a, b], '/') == a + "/" + b
  {
    assert [a, b][1..] == [b];
    assert Join([b], '/') == b;
  }

  lemma JoinOfThree(a: string, b: string, c: string)
    ensures Join([a, b, c], '/') == a + "/" + b + "/" + c
  {
    assert [a, b, c][1..] == [b, c];
    JoinOfTwo(b, c);
  }

  lemma JoinOfFour(a: string, b: string, c: string, e: string)
    ensures Join([a, b, c, e], '/') == a + "/" + b + "/" + c + "/" + e
  {
    assert [a, b, c, e][1..] == [b, c, e];
    JoinOfThree(b, c, e);
  }

  /** Each formatter writes its segments joined by `/`. */
  lemma FragmentIsJoin(dialect: Dialect, depth: nat, d: RunDate)
    requires 2 <= depth <= 4
    ensures Fragment(dialect, depth, d) == Join(Segments(dialect, depth, d), '/')
  {
    var y, m, dd, h := Pad(d.year, 4), Pad(d.month, 2), Pad(d.day, 2), Pad(d.hour, 2);
    var segs := Segments(dialect, depth, d);
    if dialect == Labelled {
      var s0, s1, s2, s3 := YearPrefix + y, MonthPrefix + m, DayPrefix + dd, HourPrefix + h;
      assert segs[0] == s0 && segs[1] == s1;
      if depth == 2 {
        assert segs == [s0, s1];
        JoinOfTwo(s0, s1);
      } else if depth == 3 {
        assert segs[2] == s2;
        assert segs == [s0, s1, s2];
        JoinOfThree(s0, s1, s2);
      } else {
        assert segs[2] == s2 && segs[3] == s3;
        assert segs == [s0, s1, s2, s3];
        JoinOfFour(s0, s1, s2, s3);
      }
    } else {
      assert segs[0] == y && segs[1] == m;
      if depth == 2 {
        assert segs == [y, m];
        JoinOfTwo(y, m);
      } else if depth == 3 {
        assert segs[2] == dd;
        assert segs == [y, m, dd];
        JoinOfThree(y, m, dd);
      } else {
        assert segs[2] == dd && segs[3] == h;
        assert segs == [y, m, dd, h];
        JoinOfFour(y, m, dd, h);
      }
    }
  }

  /** Splitting a formatted fragment at `/` gives exactly `depth` segments, labelled in the labelled dialect. */
  lemma FragmentSegments(dialect: Dialect, depth: nat, d: RunDate)
    requires 2 <= depth <= 4
    ensures Split(Fragment(dialect, depth, d), '/') == Segments(dialect, depth, d)
  {
    FragmentIsJoin(dialect, depth, d);
    SegmentsSeparable(dialect, depth, d);
    SplitJoin(Segments(dialect, depth, d), '/');
  }

  /** A labelled segment is the bare segment behind its field label. */
  lemma SegmentsLabelled(depth: nat, d: RunDate)
    requires depth <= 4
    ensures forall i :: 0 <= i < depth ==> Segments(Labelled, depth, d)[i] == Label(i) + Segments(Unlabelled, depth, d)[i]
  {
  }

  /** The Kinesis dialect writes the labelled dialect's segments with their `year=`, `month=`, `day=`
      and `hour=` prefixes removed. */
  lemma UnlabelledDropsLabels(depth: nat, d: RunDate)
    requires 2 <= depth <= 4
    ensures var labelled := Split(Fragment(Labelled, depth, d), '/');
            var bare := Split(Fragment(Unlabelled, depth, d), '/');
            |labelled| == |bare| == depth
            && forall i :: 0 <= i < depth ==> labelled[i] == Label(i) + bare[i]
  {
    FragmentSegments(Labelled, depth, d);
    FragmentSegments(Unlabelled, depth, d);
  }

  /** A field in range reads back from its zero-padded text. */
  lemma FieldTextValue(d: RunDate, i: nat)
    requires Valid(d) && i < 4
    ensures |FieldText(d, i)| == (if i == 0 then 4 else 2)
    ensures DigitsValue(FieldText(d, i)) == FieldNumber(d, i)
  {
    PadValue(FieldNumber(d, i), if i == 0 then 4 else 2);
  }

  /** Reading one more segment appends its value. */
  lemma ReadSegmentsSnoc(dialect: Dialect, init: seq<string>, text: string)
    requires |init| < 4 && |text| > 0 && AllDigits(text)
    ensures var prefix := if dialect == Labelled then Label(|init|) else "";
            var r := ReadSegments(dialect, init + [prefix + text]);
            ReadSegments(dialect, init).Some? ==> r == Some(ReadSegments(dialect, init).value + [DigitsValue(text)])
  {
    var prefix := if dialect == Labelled then Label(|init|) else "";
    var segs := init + [prefix + text];
    assert segs[..|segs| - 1] == init;
    assert segs[|segs| - 1] == prefix + text;
    assert (prefix + text)[..|prefix|] == prefix && (prefix + text)[|prefix|..] == text;
  }

  /** The first `depth` segments are the first `depth - 1` followed by one more. */
  lemma SegmentsSnoc(dialect: Dialect, depth: nat, d: RunDate)
    requires 0 < depth <= 4
    ensures Segments(dialect, depth, d) == Segments(dialect, depth - 1, d) + [Segment(dialect, d, depth - 1)]
  {
  }

  lemma {:induction false} ReadSegmentsOf(dialect: Dialect, depth: nat, d: RunDate)
    requires Valid(d) && depth <= 4
    ensures ReadSegments(dialect, Segments(dialect, depth, d)) == Some(FieldNumbers(d)[..depth])
  {
    if depth > 0 {
      var k := depth - 1;
      var init := Segments(dialect, k, d);
      ReadSegmentsOf(dialect, k, d);
      var text := FieldText(d, k);
      assert |text| > 0 && DigitsValue(text) == FieldNumber(d, k) by {
        FieldTextValue(d, k);
      }
      SegmentsSnoc(dialect, depth, d);
      ReadSegmentsSnoc(dialect, init, text);
      TakeSnoc(FieldNumbers(d), k);
    }
  }

  lemma TakeSnoc<T>(s: seq<T>, k: nat)
    requires k < |s|
    ensures s[..k + 1] == s[..k] + [s[k]]
  {
  }

  /** Decoding a formatted fragment recovers the year, month, day and hour it was written from. */
  lemma FragmentRoundTrip(dialect: Dialect, depth: nat, d: RunDate)
    requires Valid(d) && 2 <= depth <= 4
    ensures |Split(Fragment(dialect, depth, d), '/')| == depth
    ensures ReadSegments(dialect, Split(Fragment(dialect, depth, d), '/')) == Some([d.year, d.month, d.day, d.hour][..depth])
  {
    FragmentSegments(dialect, depth, d);
    ReadSegmentsOf(dialect, depth, d);
  }
}

=== FILE: s3_path.dfy ===
/** `parse_s3_path` of s3/s3api.py: `urllib.parse.urlparse` reduced to the authority and the path
    without its first character. */
module S3Path {
  import opened Wrappers
  import opened Text

  /** The inputs this model covers. Outside them `urlparse` strips leading control characters and
      spaces, deletes tabs and newlines, splits `;` parameters off some paths, validates bracketed
      IPv6 authorities and normalises non-ASCII authorities; none of that is modelled. */
  predicate InDomain(s: string)
  {
    && (|s| == 0 || s[0] > ' ')
    && forall i :: 0 <= i < |s| ==> s[i] as int < 128 && s[i] !in {';', '[', ']', '\t', '\r', '\n'}
  }

  predicate IsAsciiLetter(c: char)
  {
    'a' <= c <= 'z' || 'A' <= c <= 'Z'
  }

  /** The characters `urlsplit` admits in a scheme. */
  predicate IsSchemeChar(c: char)
  {
    IsAsciiLetter(c) || '0' <= c <= '9' || c == '+' || c == '-' || c == '.'
  }

  /** What `urlsplit` keeps after removing a `scheme:` prefix: the text before the first `:` is a scheme
      when it is non-empty, starts with an ASCII letter and holds scheme characters only. */
  function AfterScheme(s: string): (rest: string)
    ensures rest == s || (|rest| < |s| && rest == s[|s| - |rest|..])
  {
    match Cut(s, {':'})
    case None => s
    case Some((scheme, rest)) =>
      if |scheme| > 0 && IsAsciiLetter(scheme[0]) && forall i :: 0 <= i < |scheme| ==> IsSchemeChar(scheme[i]) then
        assert s == scheme + [':'] + rest;
        rest
      else s
  }

  /** `parse_s3_path(s)`: the URL's authority (the bucket) and its path minus the first character (the key). */
  function ParseS3Path(s: string): (r: (string, string))
    requires InDomain(s)
    ensures '/' !in r.0 && '?' !in r.0 && '#' !in r.0
    ensures '?' !in r.1 && '#' !in r.1
  {
    var (netloc, url) := SplitAuthority(AfterScheme(s));
    (netloc, KeyOf(url))
  }

  /** `_splitnetloc`: after `//`, the authority runs up to the first `/`, `?` or `#`. */
  function SplitAuthority(rest: string): (r: (string, string))
    ensures '/' !in r.0 && '?' !in r.0 && '#' !in r.0
  {
    if |rest| >= 2 && rest[..2] == "//" then
      var netloc := Prefix(rest[2..], {'/', '?', '#'});
      (netloc, rest[2 + |netloc|..])
    else ("", rest)
  }

  /** The path without its query (after `?`) or fragment (after `#`), minus its first character (`path[1:]`). */
  function KeyOf(url: string): (key: string)
    ensures '?' !in key && '#' !in key
  {
    var path := Prefix(url, {'?', '#'});
    if |path| == 0 then "" else path[1..]
  }

  /** The URI `get_files_s3_path_by_path` rebuilds for each listed key: `"s3://{}/{}".format(bucket, key)`. */
  function ObjectUri(bucket: string, key: string): string
  {
    "s3://" + bucket + "/" + key
  }

  /** Characters that end the authority or the path in a URL. */
  predicate PlainBucket(bucket: string)
  {
    forall i :: 0 <= i < |bucket| ==> bucket[i] !in {'/', '?', '#'}
  }

  predicate PlainKey(key: string)
  {
    forall i :: 0 <= i < |key| ==> key[i] !in {'?', '#'}
  }

  lemma AfterS3Scheme(tail: string)
    ensures AfterScheme("s3:" + tail) == tail
  {
    var s := "s3:" + tail;
    assert s == "s3" + [':'] + tail;
    CutAt("s3", ':', tail, {':'});
  }

  lemma SplitAuthorityOf(bucket: string, tail: string)
    requires PlainBucket(bucket)
    requires |tail| == 0 || tail[0] == '/'
    ensures SplitAuthority("//" + bucket + tail) == (bucket, tail)
  {
    var rest := "//" + bucket + tail;
    assert rest[..2] == "//";
    if |tail| == 0 {
      assert rest[2..] == bucket;
      PrefixWhole(bucket, {'/', '?', '#'});
    } else {
      assert rest[2..] == bucket + ['/'] + tail[1..];
      PrefixAt(bucket, '/', tail[1..], {'/', '?', '#'});
    }
    assert rest[2 + |bucket|..] == tail;
  }

  lemma KeyOfPath(key: string)
    requires PlainKey(key)
    ensures KeyOf("/" + key) == key
  {
    PrefixWhole("/" + key, {'?', '#'});
  }

  /** Parsing a rebuilt object URI gives back the bucket and the key: the round trip the listing code relies on. */
  lemma ParseObjectUri(bucket: string, key: string)
    requires PlainBucket(bucket) && PlainKey(key)
    requires InDomain(ObjectUri(bucket, key))
    ensures ParseS3Path(ObjectUri(bucket, key)) == (bucket, key)
  {
    AfterS3Scheme("//" + bucket + "/" + key);
    assert ObjectUri(bucket, key) == "s3:" + ("//" + bucket + "/" + key);
    assert "//" + bucket + "/" + key == "//" + bucket + ("/" + key);
    SplitAuthorityOf(bucket, "/" + key);
    KeyOfPath(key);
  }

  /** A bucket with no path, `s3://b`, gives the empty key. */
  lemma ParseBucketOnly(bucket: string)
    requires PlainBucket(bucket) && InDomain("s3://" + bucket)
    ensures ParseS3Path("s3://" + bucket) == (bucket, "")
  {
    var rest := "//" + bucket;
    assert "s3://" + bucket == "s3:" + rest;
    AfterS3Scheme(rest);
    assert SplitAuthority(rest) == (bucket, "") by {
      assert rest == "//" + bucket + "";
      SplitAuthorityOf(bucket, "");
    }
  }

  /** A bucket with a trailing slash, `s3://b/`, gives the empty key too. */
  lemma ParseBucketSlash(bucket: string)
    requires PlainBucket(bucket) && InDomain("s3://" + bucket + "/")
    ensures ParseS3Path("s3://" + bucket + "/") == (bucket, "")
  {
    assert ObjectUri(bucket, "") == "s3://" + bucket + "/";
    ParseObjectUri(bucket, "");
  }

  /** Without a leading `//` there is no authority, and the key loses the first character of the path whatever it is. */
  lemma ParseWithoutAuthority(s: string)
    requires InDomain(s) && ':' !in s && |s| >= 1 && !(|s| >= 2 && s[..2] == "//") && PlainKey(s)
    ensures ParseS3Path(s) == ("", s[1..])
  {
    assert Cut(s, {':'}).None?;
    PrefixWhole(s, {'?', '#'});
  }
}

=== FILE: tables.dfy ===
/** Table descriptors of s3/s3metastore.py: `Table` (and `S3Table`, which adds nothing), `KinesisTable`,
    and `S3TableWithPartition` with its single `attach` slot. */
module Tables {
  import opened Wrappers
  import opened Errors
  import opened Text
  import opened Timestamps
  import opened PartitionFormat
  import opened S3Path

  /** How `path` reads a table's partition type tag. */
  datatype PartitionType = Ymd | Ymdh | Ym | Y | Unpartitioned | Unrecognised

  /** `path` compares the tag with `"ymd"`, `"ymdh"`, `"ym"` and `"y"`, then tests it for `None`. */
  function Classify(tag: Option<string>): PartitionType
  {
    match tag
    case None => Unpartitioned
    case Some(t) =>
      if t == "ymd" then Ymd
      else if t == "ymdh" then Ymdh
      else if t == "ym" then Ym
      else if t == "y" then Y
      else Unrecognised
  }

  /** `Table` and `S3Table` render labelled partitions; `KinesisTable` overrides `path` with bare ones. */
  datatype TableKind = Plain | Kinesis

  /** `Table(dbroot, name, schema=None, partitiontype="ymd")`, with the kind of class that built it. */
  datatype Table = Table(root: string, name: string, schema: Option<string> := None,
                         partitionTag: Option<string> := Some("ymd"), kind: TableKind := Plain)

  /** `KinesisTable(dbroot, name, schema, partition_type)`: the constructor drops `schema`. */
  function NewKinesisTable(root: string, name: string, schema: Option<string> := None, partitionTag: Option<string> := Some("ymdh")): (t: Table)
    ensures t.schema == None && t.kind == Kinesis
    ensures t.root == root && t.name == name && t.partitionTag == partitionTag
  {
    Table(root, name, None, partitionTag, Kinesis)
  }

  /** Without a partition type, a Kinesis table is partitioned by hour, while a plain table is partitioned by day. */
  lemma ConstructorDefaults(root: string, name: string)
    ensures Classify(NewKinesisTable(root, name).partitionTag) == Ymdh && NewKinesisTable(root, name).schema == None
    ensures Classify(Table(root, name).partitionTag) == Ymd && Table(root, name).kind == Plain
  {
  }

  /** `"{0}/{1}".format(rootpath, name)`: the table's location without a partition. */
  function BasePath(t: Table): string
  {
    t.root + "/" + t.name
  }

  function DialectOf(kind: TableKind): Dialect
  {
    if kind == Kinesis then Unlabelled else Labelled
  }

  /** The body shared by `path` and `partition_path` once the run date has been parsed. */
  function PathOn(t: Table, dialect: Dialect, rdate: Option<RunDate>): (r: Option<string>)
    ensures rdate.None? ==> r == Some(BasePath(t))
    ensures rdate.Some? && Classify(t.partitionTag) == Unpartitioned ==> r == Some(BasePath(t))
    ensures r.None? <==> rdate.Some? && Classify(t.partitionTag) == Unrecognised
    ensures r.Some? ==> |BasePath(t)| <= |r.value| && r.value[..|BasePath(t)|] == BasePath(t)
  {
    if rdate.None? then Some(BasePath(t))
    else
      var d := rdate.value;
      match Classify(t.partitionTag)
      case Ymd => Some(BasePath(t) + "/" + Fragment(dialect, 3, d))
      case Ymdh => Some(BasePath(t) + "/" + Fragment(dialect, 4, d))
      case Ym => Some(BasePath(t) + "/" + Fragment(dialect, 2, d))
      // "y" reuses the year-month formatter, so it writes a month segment as well
      case Y => Some(BasePath(t) + "/" + Fragment(dialect, 2, d))
      case Unpartitioned => Some(BasePath(t))
      case Unrecognised => None
  }

  /** `path`/`partition_path` on a run-date string. The string is parsed only inside a recognised
      date branch, so an unrecognised tag returns `None` and no tag raises for a malformed date. */
  function PathWithDialect(t: Table, dialect: Dialect, rdate: Option<string>): (r: Result<Option<string>, Error>)
    ensures rdate.None? ==> r == Success(Some(BasePath(t)))
    ensures r.Failure? <==> (rdate.Some? && Classify(t.partitionTag) in {Ymd, Ymdh, Ym, Y}
                             && ParseTimestamp(rdate.value).None?)
    ensures r.Failure? ==> r.error == TimeDataMismatch(rdate.value)
    ensures rdate.Some? && Classify(t.partitionTag) == Unpartitioned ==> r == Success(Some(BasePath(t)))
    ensures rdate.Some? && Classify(t.partitionTag) == Unrecognised ==> r == Success(None)
    ensures rdate.Some? && ParseTimestamp(rdate.value).Some? ==> r == Success(PathOn(t, dialect, ParseTimestamp(rdate.value)))
  {
    match rdate
    case None => Success(Some(BasePath(t)))
    case Some(text) =>
      match Classify(t.partitionTag)
      case Unpartitioned => Success(Some(BasePath(t)))
      case Unrecognised => Success(None)
      case _ =>
        match ParseTimestamp(text)
        case None => Failure(TimeDataMismatch(text))
        case Some(d) => Success(PathOn(t, dialect, Some(d)))
  }

  /** `Table.path`, and `KinesisTable.path` for a Kinesis table. */
  function Path(t: Table, rdate: Option<string> := None): (r: Result<Option<string>, Error>)
    ensures rdate.None? ==> r == Success(Some(t.root + "/" + t.name))
    ensures r.Failure? ==> rdate.Some? && r.error == TimeDataMismatch(rdate.value)
    ensures r.Success? && r.value.Some? ==> |BasePath(t)| <= |r.value.value| && r.value.value[..|BasePath(t)|] == BasePath(t)
  {
    PathWithDialect(t, DialectOf(t.kind), rdate)
  }

  /** `Table.partition_path`: `KinesisTable` does not override it, so it is labelled for every table. */
  function PartitionPath(t: Table, rdate: Option<string> := None): (r: Result<Option<string>, Error>)
    ensures rdate.None? ==> r == Success(Some(t.root + "/" + t.name))
    ensures r.Failure? ==> rdate.Some? && r.error == TimeDataMismatch(rdate.value)
    ensures r.Success? && r.value.Some? ==> |BasePath(t)| <= |r.value.value| && r.value.value[..|BasePath(t)|] == BasePath(t)
  {
    PathWithDialect(t, Labelled, rdate)
  }

  /** The number of date segments a recognised partition type writes. */
  function Depth(pt: PartitionType): nat
    requires pt in {Ymd, Ymdh, Ym, Y}
  {
    match pt
    case Ymd => 3
    case Ymdh => 4
    case _ => 2
  }

  /** With no run date every table is at `root/name`, whatever its partition type and kind. */
  lemma PathWithoutRunDate(t: Table)
    ensures Path(t, None) == Success(Some(t.root + "/" + t.name))
    ensures PartitionPath(t, None) == Success(Some(t.root + "/" + t.name))
  {
  }

  /** `partition_path` agrees with `path` on every input for `Table` and `S3Table`. */
  lemma PartitionPathAgrees(t: Table, rdate: Option<string>)
    requires t.kind == Plain
    ensures PartitionPath(t, rdate) == Path(t, rdate)
  {
  }

  /** A `"y"` table is laid out exactly like a `"ym"` table, month segment included. */
  lemma YearLikeYearMonth(t: Table, rdate: Option<string>)
    requires t.partitionTag == Some("y")
    ensures Path(t, rdate) == Path(t.(partitionTag := Some("ym")), rdate)
  {
  }

  lemma PathOnDate(t: Table, dialect: Dialect, d: RunDate)
    requires Classify(t.partitionTag) in {Ymd, Ymdh, Ym, Y}
    ensures PathOn(t, dialect, Some(d)) == Some(BasePath(t) + "/" + Fragment(dialect, Depth(Classify(t.partitionTag)), d))
  {
  }

  /** A date-partitioned path splits into the base path's parts followed by one segment per date field. */
  lemma DatePathSplit(t: Table, dialect: Dialect, d: RunDate)
    requires Classify(t.partitionTag) in {Ymd, Ymdh, Ym, Y}
    ensures Split(PathOn(t, dialect, Some(d)).value, '/')
            == Split(BasePath(t), '/') + Segments(dialect, Depth(Classify(t.partitionTag)), d)
  {
    var depth := Depth(Classify(t.partitionTag));
    PathOnDate(t, dialect, d);
    SplitConcat(BasePath(t), '/', Fragment(dialect, depth, d));
    FragmentSegments(dialect, depth, d);
  }

  /** A date-partitioned path splits into the base path's parts followed by one segment per date field:
      `year=YYYY/month=MM/day=DD` for `"ymd"`, a fourth `hour=HH` for `"ymdh"`, year and month for `"ym"`
      and `"y"`; a Kinesis table writes the same segments without their labels. */
  lemma DatePathSegments(t: Table, d: RunDate)
    requires Classify(t.partitionTag) in {Ymd, Ymdh, Ym, Y}
    ensures var depth := Depth(Classify(t.partitionTag));
            var p := PathOn(t, DialectOf(t.kind), Some(d));
            p.Some? && Split(p.value, '/') == Split(BasePath(t), '/') + Segments(DialectOf(t.kind), depth, d)
  {
    DatePathSplit(t, DialectOf(t.kind), d);
  }

  /** The run date can be read back from the last segments of a date-partitioned path. */
  lemma DatePathRoundTrip(t: Table, d: RunDate)
    requires Valid(d) && Classify(t.partitionTag) in {Ymd, Ymdh, Ym, Y}
    ensures var depth := Depth(Classify(t.partitionTag));
            var parts := Split(PathOn(t, DialectOf(t.kind), Some(d)).value, '/');
            |parts| >= depth
            && ReadSegments(DialectOf(t.kind), parts[|parts| - depth..]) == Some([d.year, d.month, d.day, d.hour][..depth])
  {
    var depth := Depth(Classify(t.partitionTag));
    DatePathSegments(t, d);
    var parts := Split(PathOn(t, DialectOf(t.kind), Some(d)).value, '/');
    assert parts[|parts| - depth..] == Segments(DialectOf(t.kind), depth, d);
    ReadSegmentsOf(DialectOf(t.kind), depth, d);
  }

  /** A Kinesis table's `path` is its labelled `partition_path` with the field labels removed. */
  lemma KinesisPathDropsLabels(t: Table, d: RunDate)
    requires t.kind == Kinesis && Classify(t.partitionTag) in {Ymd, Ymdh, Ym, Y}
    ensures PathOn(t, Unlabelled, Some(d)).Some? && PathOn(t, Labelled, Some(d)).Some?
    ensures var bare := Split(PathOn(t, Unlabelled, Some(d)).value, '/');
            var labelled := Split(PathOn(t, Labelled, Some(d)).value, '/');
            var base := |Split(BasePath(t), '/')|;
            && |bare| == |labelled| == base + Depth(Classify(t.partitionTag))
            && bare[..base] == labelled[..base]
            && forall i :: 0 <= i < Depth(Classify(t.partitionTag)) ==> labelled[base + i] == Label(i) + bare[base + i]
  {
    var depth := Depth(Classify(t.partitionTag));
    DatePathSplit(t, Unlabelled, d);
    DatePathSplit(t, Labelled, d);
    SegmentsLabelled(depth, d);
    LabelsAfterBase(Split(BasePath(t), '/'), Segments(Labelled, depth, d), Segments(Unlabelled, depth, d));
  }

  /** Appending labelled and bare segments to the same base keeps the base and the labelling. */
  lemma LabelsAfterBase(base: seq<string>, labelled: seq<string>, bare: seq<string>)
    requires |labelled| == |bare| <= 4
    requires forall i :: 0 <= i < |bare| ==> labelled[i] == Label(i) + bare[i]
    ensures (base + bare)[..|base|] == base == (base + labelled)[..|base|]
    ensures forall i :: 0 <= i < |bare| ==> (base + labelled)[|base| + i] == Label(i) + (base + bare)[|base| + i]
  {
  }

  /** A well-formed run-date string selects the path of the date it spells. */
  lemma PathOfFormattedDate(t: Table, d: RunDate)
    requires Valid(d)
    ensures Path(t, Some(FormatTimestamp(d))) == Success(PathOn(t, DialectOf(t.kind), Some(d)))
  {
    ParseTimestampRoundTrip(d);
  }

  /** `Table.bucket`: the authority of the table's base path. */
  function Bucket(t: Table): (bucket: string)
    requires InDomain(BasePath(t))
    ensures '/' !in bucket && '?' !in bucket && '#' !in bucket
  {
    ParseS3Path(BasePath(t)).0
  }

  /** `Table.sub_prefix`: the key of the table's base path. */
  function SubPrefix(t: Table): (prefix: string)
    requires InDomain(BasePath(t))
    ensures '?' !in prefix && '#' !in prefix
  {
    ParseS3Path(BasePath(t)).1
  }

  /** A table rooted at `s3://bucket/prefix` lives in `bucket` under the key `prefix/name`. */
  lemma TableLocation(t: Table, bucket: string, prefix: string)
    requires t.root == "s3://" + bucket + "/" + prefix
    requires PlainBucket(bucket) && PlainKey(prefix + "/" + t.name)
    requires InDomain(BasePath(t))
    ensures Bucket(t) == bucket && SubPrefix(t) == prefix + "/" + t.name
  {
    assert BasePath(t) == ObjectUri(bucket, prefix + "/" + t.name);
    ParseObjectUri(bucket, prefix + "/" + t.name);
  }

  /** A table rooted at the bare bucket `s3://bucket` lives in `bucket` under the key `name`. */
  lemma TableAtBucketRoot(t: Table, bucket: string)
    requires t.root == "s3://" + bucket
    requires PlainBucket(bucket) && PlainKey(t.name)
    requires InDomain(BasePath(t))
    ensures Bucket(t) == bucket && SubPrefix(t) == t.name
  {
    assert BasePath(t) == ObjectUri(bucket, t.name);
    ParseObjectUri(bucket, t.name);
  }

  /** `S3TableWithPartition`: a `Table` with the default partition type, its partition key names, and the
      state `attach` writes. */
  datatype PartitionedTable = PartitionedTable(
    base: Table,
    descriptor: seq<string>,
    partitionVals: Option<seq<string>>,
    separator: Option<string>,
    attachedPath: Option<string>)

  /** `S3TableWithPartition(dbroot, name, partition_descriptor, schema)`: nothing attached yet. */
  function NewPartitionedTable(root: string, name: string, descriptor: seq<string>, schema: Option<string> := None): (pt: PartitionedTable)
    ensures AttachedPath(pt) == None
    ensures pt.base == Table(root, name, schema, Some("ymd"), Plain) && pt.descriptor == descriptor
  {
    PartitionedTable(Table(root, name, schema, Some("ymd"), Plain), descriptor, None, None, None)
  }

  /** `"{}{}{}".format(k, separator, v) for k, v in zip(keys, vals)`: `zip` stops at the shorter list. */
  function Pairs(keys: seq<string>, vals: seq<string>, sep: string): (r: seq<string>)
    ensures |r| == if |keys| < |vals| then |keys| else |vals|
    ensures forall i :: 0 <= i < |r| ==> r[i] == keys[i] + sep + vals[i]
    decreases |keys|
  {
    if |keys| == 0 || |vals| == 0 then []
    else [keys[0] + sep + vals[0]] + Pairs(keys[1..], vals[1..], sep)
  }

  /** `path_by_vals`: the base path, a `/`, then the key/value pairs joined by `/`. */
  function PathByVals(pt: PartitionedTable, vals: seq<string>, sep: string := "="): (r: string)
    ensures var base := BasePath(pt.base) + "/"; |base| <= |r| && r[..|base|] == base
  {
    BasePath(pt.base) + "/" + Join(Pairs(pt.descriptor, vals, sep), '/')
  }

  /** `path_by_vals` splits into the base path's parts and one `key<sep>value` part per zipped pair; with no
      pairs at all the path ends in a bare `/`. */
  lemma PathByValsSegments(pt: PartitionedTable, vals: seq<string>, sep: string)
    requires Separable(pt.descriptor, '/') && Separable(vals, '/') && '/' !in sep
    ensures var pairs := Pairs(pt.descriptor, vals, sep);
            Split(PathByVals(pt, vals, sep), '/') == Split(BasePath(pt.base), '/') + (if |pairs| == 0 then [""] else pairs)
  {
    var pairs := Pairs(pt.descriptor, vals, sep);
    SplitConcat(BasePath(pt.base), '/', Join(pairs, '/'));
    if |pairs| > 0 {
      forall i | 0 <= i < |pairs|
        ensures '/' !in pairs[i]
      {
        assert pairs[i] == pt.descriptor[i] + sep + vals[i];
      }
      SplitJoin(pairs, '/');
    }
  }

  /** Python truthiness of an optional string: present and non-empty. */
  predicate Truthy(s: Option<string>)
  {
    s.Some? && s.value != ""
  }

  /** The object path `s3_bucket_key` parses: `/filename` is appended only for a truthy file name. */
  function ObjectPath(pt: PartitionedTable, vals: seq<string>, sep: string, filename: Option<string>): string
  {
    PathByVals(pt, vals, sep) + (if Truthy(filename) then "/" + filename.value else "")
  }

  /** `s3_bucket_key`: bucket and key of the partition path, with the file name when one is given. */
  function S3BucketKey(pt: PartitionedTable, vals: seq<string>, sep: string := "=", filename: Option<string> := None): (r: (string, string))
    requires InDomain(ObjectPath(pt, vals, sep, filename))
    ensures '/' !in r.0
  {
    ParseS3Path(ObjectPath(pt, vals, sep, filename))
  }

  /** For a table rooted at `s3://bucket/prefix`, `s3_bucket_key` names that bucket and the key
      `prefix/name/<pairs>[/filename]`. */
  lemma S3BucketKeyOf(pt: PartitionedTable, vals: seq<string>, sep: string, filename: Option<string>, bucket: string, prefix: string)
    requires pt.base.root == "s3://" + bucket + "/" + prefix
    requires PlainBucket(bucket)
    requires InDomain(ObjectPath(pt, vals, sep, filename))
    requires PlainKey(ObjectPath(pt, vals, sep, filename))
    ensures S3BucketKey(pt, vals, sep, filename)
            == (bucket, prefix + "/" + pt.base.name + "/" + Join(Pairs(pt.descriptor, vals, sep), '/')
                        + (if Truthy(filename) then "/" + filename.value else ""))
  {
    var key := prefix + "/" + pt.base.name + "/" + Join(Pairs(pt.descriptor, vals, sep), '/')
               + (if Truthy(filename) then "/" + filename.value else "");
    var path := ObjectPath(pt, vals, sep, filename);
    assert path == ObjectUri(bucket, key);
    assert forall i :: 0 <= i < |key| ==> key[i] == path[|path| - |key| + i];
    ParseObjectUri(bucket, key);
  }

  /** `attach`: records the values and separator and caches their `path_by_vals`, replacing any earlier attachment. */
  function Attach(pt: PartitionedTable, vals: seq<string>, sep: string := "="): (r: PartitionedTable)
    ensures r.base == pt.base && r.descriptor == pt.descriptor
  {
    pt.(partitionVals := Some(vals), separator := Some(sep), attachedPath := Some(PathByVals(pt, vals, sep)))
  }

  /** `attached_path`. */
  function AttachedPath(pt: PartitionedTable): Option<string>
  {
    pt.attachedPath
  }

  /** After `attach(vals, sep)`, `attached_path()` is `path_by_vals(vals, sep)`, and attaching does not change
      what `path_by_vals` computes. */
  lemma AttachThenRead(pt: PartitionedTable, vals: seq<string>, sep: string, other: seq<string>, otherSep: string)
    ensures AttachedPath(Attach(pt, vals, sep)) == Some(PathByVals(pt, vals, sep))
    ensures PathByVals(Attach(pt, vals, sep), other, otherSep) == PathByVals(pt, other, otherSep)
  {
  }

  /** Each `attach` overwrites the previous one entirely. */
  lemma AttachOverwrites(pt: PartitionedTable, first: seq<string>, firstSep: string, second: seq<string>, secondSep: string)
    ensures Attach(Attach(pt, first, firstSep), second, secondSep) == Attach(pt, second, secondSep)
  {
  }
}

=== FILE: text.dfy ===
/** String helpers with Python's meaning: `str.split`, `str.join`, and cutting at the first separator. */
module Text {
  import opened Wrappers

  /** The longest prefix of `s` that holds no character of `seps`. */
  function Prefix(s: string, seps: set<char>): (p: string)
    ensures |p| <= |s| && p == s[..|p|]
    ensures forall i :: 0 <= i < |p| ==> p[i] !in seps
    ensures |p| < |s| ==> s[|p|] in seps
    decreases |s|
  {
    if |s| == 0 || s[0] in seps then "" else [s[0]] + Prefix(s[1..], seps)
  }

  /** The text before the first separator and the text after it, or `None` when no separator occurs. */
  function Cut(s: string, seps: set<char>): (r: Option<(string, string)>)
    ensures r.None? <==> forall i :: 0 <= i < |s| ==> s[i] !in seps
    ensures r.Some? ==> |r.value.0| < |s|
    ensures r.Some? ==> s == r.value.0 + [s[|r.value.0|]] + r.value.1 && s[|r.value.0|] in seps
    ensures r.Some? ==> forall i :: 0 <= i < |r.value.0| ==> r.value.0[i] !in seps
  {
    var p := Prefix(s, seps);
    if |p| == |s| then None else Some((p, s[|p| + 1..]))
  }

  /** `s.split(c)` for a one-character separator: never empty, and no part holds `c`. */
  function Split(s: string, c: char): (parts: seq<string>)
    ensures |parts| >= 1
    ensures forall i :: 0 <= i < |parts| ==> c !in parts[i]
    decreases |s|
  {
    if |s| == 0 then [""]
    else if s[0] == c then [""] + Split(s[1..], c)
    else
      var rest := Split(s[1..], c);
      [[s[0]] + rest[0]] + rest[1..]
  }

  /** `c.join(parts)`. */
  function Join(parts: seq<string>, c: char): string
  {
    if |parts| == 0 then ""
    else if |parts| == 1 then parts[0]
    else parts[0] + [c] + Join(parts[1..], c)
  }

  /** No part holds the separator. */
  predicate Separable(parts: seq<string>, c: char)
  {
    forall i :: 0 <= i < |parts| ==> c !in parts[i]
  }

  /** Cutting at the first separator finds a separator placed after a separator-free prefix. */
  lemma CutAt(a: string, x: char, b: string, seps: set<char>)
    requires x in seps
    requires forall i :: 0 <= i < |a| ==> a[i] !in seps
    ensures Cut(a + [x] + b, seps) == Some((a, b))
  {
    var s := a + [x] + b;
    var p := Prefix(s, seps);
    assert s[|a|] == x;
    assert forall i :: 0 <= i < |a| ==> s[i] == a[i];
    assert |p| == |a|;
    assert p == a;
    assert s[|a| + 1..] == b;
  }

  /** A string without separators is its own longest separator-free prefix. */
  lemma PrefixWhole(s: string, seps: set<char>)
    requires forall i :: 0 <= i < |s| ==> s[i] !in seps
    ensures Prefix(s, seps) == s
  {
  }

  /** The longest separator-free prefix stops at the first separator. */
  lemma PrefixAt(a: string, x: char, b: string, seps: set<char>)
    requires x in seps
    requires forall i :: 0 <= i < |a| ==> a[i] !in seps
    ensures Prefix(a + [x] + b, seps) == a
  {
    CutAt(a, x, b, seps);
  }

  /** Splitting a separator-free string gives that string back alone. */
  lemma {:induction false} SplitNoSeparator(a: string, c: char)
    requires c !in a
    ensures Split(a, c) == [a]
    decreases |a|
  {
    if |a| > 0 {
      SplitNoSeparator(a[1..], c);
      assert [a[0]] + a[1..] == a;
    }
  }

  /** Splitting at a separator that follows a separator-free prefix peels that prefix off as one part. */
  lemma {:induction false} SplitAfterPrefix(a: string, c: char, b: string)
    requires c !in a
    ensures Split(a + [c] + b, c) == [a] + Split(b, c)
    decreases |a|
  {
    var s := a + [c] + b;
    if |a| == 0 {
      assert s[0] == c && s[1..] == b;
    } else {
      assert s[0] == a[0] && s[1..] == a[1..] + [c] + b;
      SplitAfterPrefix(a[1..], c, b);
      assert [a[0]] + a[1..] == a;
    }
  }

  /** Join followed by split is the identity on separator-free parts (the `"/".join` / `split("/")` round trip). */
  lemma {:induction false} SplitJoin(parts: seq<string>, c: char)
    requires |parts| >= 1 && Separable(parts, c)
    ensures Split(Join(parts, c), c) == parts
    decreases |parts|
  {
    if |parts| == 1 {
      SplitNoSeparator(parts[0], c);
    } else {
      SplitAfterPrefix(parts[0], c, Join(parts[1..], c));
      SplitJoin(parts[1..], c);
      assert [parts[0]] + parts[1..] == parts;
    }
  }

  /** Split followed by join is the identity on every string. */
  lemma {:induction false} JoinSplit(s: string, c: char)
    ensures Join(Split(s, c), c) == s
    decreases |s|
  {
    if |s| > 0 {
      JoinSplit(s[1..], c);
      var rest := Split(s[1..], c);
      if s[0] == c {
        assert s == [c] + s[1..];
      } else {
        var parts := [[s[0]] + rest[0]] + rest[1..];
        assert parts[1..] == rest[1..];
        if |rest| == 1 {
          assert s == [s[0]] + rest[0];
        } else {
          assert Join(rest, c) == rest[0] + [c] + Join(rest[1..], c);
          assert s == [s[0]] + s[1..];
        }
      }
    }
  }

  /** Splitting a separator-joined pair of strings concatenates the splits of the halves. */
  lemma {:induction false} SplitConcat(a: string, c: char, b: string)
    ensures Split(a + [c] + b, c) == Split(a, c) + Split(b, c)
    decreases |a|
  {
    if |a| == 0 {
      assert a + [c] + b == [c] + b;
      assert (a + [c] + b)[1..] == b;
    } else {
      var s := a + [c] + b;
      assert s[0] == a[0] && s[1..] == a[1..] + [c] + b;
      SplitConcat(a[1..], c, b);
      if a[0] != c {
        var ra := Split(a[1..], c);
        assert Split(s[1..], c) == ra + Split(b, c);
        assert (ra + Split(b, c))[0] == ra[0];
        assert (ra + Split(b, c))[1..] == ra[1..] + Split(b, c);
      }
    }
  }
}

=== FILE: timestamps.dfy ===
/** Run dates: what `datetime.strptime` accepts for the formats `%Y-%m-%dT%H:%M:%S` and `%Y-%m-%d`,
    and the zero-padded rendering `strftime` gives back. */
module Timestamps {
  import opened Wrappers
  import opened Text
  import opened Decimal

  /** A parsed `datetime` down to the second. */
  datatype RunDate = RunDate(year: nat, month: nat, day: nat, hour: nat, minute: nat, second: nat)

  predicate IsLeapYear(year: nat)
  {
    year % 4 == 0 && (year % 100 != 0 || year % 400 == 0)
  }

  function DaysInMonth(year: nat, month: nat): (n: nat)
    requires 1 <= month <= 12
    ensures 28 <= n <= 31
  {
    if month == 2 then (if IsLeapYear(year) then 29 else 28)
    else if month == 4 || month == 6 || month == 9 || month == 11 then 30
    else 31
  }

  /** The dates `datetime` can represent, to the second. */
  predicate Valid(d: RunDate)
  {
    && 1 <= d.year <= 9999
    && 1 <= d.month <= 12
    && 1 <= d.day <= DaysInMonth(d.year, d.month)
    && d.hour < 24
    && d.minute < 60
    && d.second < 60
  }

  /** A digit string is below ten to the power of its length. */
  lemma {:induction false} DigitsValueBound(s: string)
    requires AllDigits(s)
    ensures DigitsValue(s) < Pow10(|s|)
    decreases |s|
  {
    if |s| > 0 {
      DigitsValueBound(s[..|s| - 1]);
    }
  }

  /** The patterns of `%m`, `%H`, `%M` and `%S`: one or two ASCII digits with a value in `[lo, hi]`. */
  function ShortField(text: string, lo: nat, hi: nat): (r: Option<nat>)
    ensures r.Some? ==> lo <= r.value <= hi && 1 <= |text| <= 2
    ensures r.Some? ==> AllDigits(text) && r.value == DigitsValue(text)
  {
    if 1 <= |text| <= 2 && AllDigits(text) && lo <= DigitsValue(text) <= hi then Some(DigitsValue(text)) else None
  }

  /** The pattern of `%d`: a short field in 1..31, or a space followed by a non-zero digit. */
  function DayField(text: string): (r: Option<nat>)
    ensures r.Some? ==> 1 <= r.value <= 31
  {
    if |text| == 2 && text[0] == ' ' && '1' <= text[1] <= '9' then Some(DigitValue(text[1]))
    else ShortField(text, 1, 31)
  }

  /** The pattern of `%Y` is exactly four digits; `datetime` then refuses year 0. */
  function YearField(text: string): (r: Option<nat>)
    ensures r.Some? ==> 1 <= r.value <= 9999
    ensures r.Some? <==> |text| == 4 && AllDigits(text) && DigitsValue(text) >= 1
  {
    if |text| == 4 && AllDigits(text) && DigitsValue(text) >= 1 then
      DigitsValueBound(text);
      Some(DigitsValue(text))
    else None
  }

  /** `datetime.strptime(s, "%Y-%m-%dT%H:%M:%S")` restricted to ASCII digits. Every field pattern matches
      digits (or a space) only, so each field is exactly the text up to the next literal separator; the
      literal `T` matches either case, as strptime compiles its pattern case-insensitively. */
  function ParseTimestamp(s: string): (r: Option<RunDate>)
    ensures r.Some? ==> Valid(r.value)
  {
    var afterYear :- Cut(s, {'-'});
    var year :- YearField(afterYear.0);
    ParseFromMonth(afterYear.1, year)
  }

  /** The rest of a timestamp after `%Y-`. */
  function ParseFromMonth(s: string, year: nat): (r: Option<RunDate>)
    requires 1 <= year <= 9999
    ensures r.Some? ==> Valid(r.value) && r.value.year == year
  {
    var afterMonth :- Cut(s, {'-'});
    var month :- ShortField(afterMonth.0, 1, 12);
    var afterDay :- Cut(afterMonth.1, {'T', 't'});
    var day :- DayField(afterDay.0);
    ParseClock(afterDay.1, year, month, day)
  }

  /** The `%H:%M:%S` tail of a timestamp, and the calendar checks `datetime` makes once all fields are read. */
  function ParseClock(s: string, year: nat, month: nat, day: nat): (r: Option<RunDate>)
    requires 1 <= year <= 9999 && 1 <= month <= 12 && 1 <= day <= 31
    ensures r.Some? ==> Valid(r.value) && r.value.year == year && r.value.month == month && r.value.day == day
  {
    var afterHour :- Cut(s, {':'});
    var hour :- ShortField(afterHour.0, 0, 23);
    var afterMinute :- Cut(afterHour.1, {':'});
    var minute :- ShortField(afterMinute.0, 0, 59);
    // the `%S` pattern admits the leap seconds 60 and 61, which `datetime` then refuses
    var second :- ShortField(afterMinute.1, 0, 61);
    if second <= 59 && day <= DaysInMonth(year, month) then Some(RunDate(year, month, day, hour, minute, second))
    else None
  }

  /** `datetime.strptime(s, "%Y-%m-%d")`: a date at midnight. */
  function ParseDay(s: string): (r: Option<RunDate>)
    ensures r.Some? ==> Valid(r.value) && r.value.hour == 0 && r.value.minute == 0 && r.value.second == 0
  {
    var afterYear :- Cut(s, {'-'});
    var year :- YearField(afterYear.0);
    var afterMonth :- Cut(afterYear.1, {'-'});
    var month :- ShortField(afterMonth.0, 1, 12);
    var day :- DayField(afterMonth.1);
    if day <= DaysInMonth(year, month) then Some(RunDate(year, month, day, 0, 0, 0)) else None
  }

  /** `strftime("%Y-%m-%d")`. */
  function FormatDay(d: RunDate): string
  {
    Pad(d.year, 4) + "-" + Pad(d.month, 2) + "-" + Pad(d.day, 2)
  }

  /** `strftime("%Y-%m-%dT%H:%M:%S")`: the canonical spelling of a run date, built from the right so that each
      separator splits it into a field and the spelling of the remaining fields. */
  function FormatTimestamp(d: RunDate): string
  {
    Pad(d.year, 4) + "-" + MonthOnward(d)
  }

  /** The canonical spelling from `%m` on. */
  function MonthOnward(d: RunDate): string
  {
    Pad(d.month, 2) + "-" + DayOnward(d)
  }

  /** The canonical spelling from `%d` on. */
  function DayOnward(d: RunDate): string
  {
    Pad(d.day, 2) + "T" + ClockText(d)
  }

  /** The `%H:%M:%S` part of the canonical spelling. */
  function ClockText(d: RunDate): string
  {
    Pad(d.hour, 2) + ":" + MinuteOnward(d)
  }

  /** The `%M:%S` part of the canonical spelling. */
  function MinuteOnward(d: RunDate): string
  {
    Pad(d.minute, 2) + ":" + Pad(d.second, 2)
  }

  /** A two-digit field in range reads back through its pattern. */
  lemma ShortFieldOfPad(n: nat, lo: nat, hi: nat)
    requires lo <= n <= hi < 100
    ensures |Pad(n, 2)| == 2 && ShortField(Pad(n, 2), lo, hi) == Some(n)
  {
    PadValue(n, 2);
  }

  lemma YearFieldOfPad(n: nat)
    requires 1 <= n <= 9999
    ensures |Pad(n, 4)| == 4 && YearField(Pad(n, 4)) == Some(n)
  {
    PadValue(n, 4);
  }

  /** Every valid date at midnight survives rendering and parsing with `%Y-%m-%d`. */
  lemma ParseDayRoundTrip(d: RunDate)
    requires Valid(d) && d.hour == 0 && d.minute == 0 && d.second == 0
    ensures ParseDay(FormatDay(d)) == Some(d)
  {
    var y, m, dd := Pad(d.year, 4), Pad(d.month, 2), Pad(d.day, 2);
    YearFieldOfPad(d.year);
    ShortFieldOfPad(d.month, 1, 12);
    ShortFieldOfPad(d.day, 1, 31);
    assert dd[0] != ' ';
    var s := FormatDay(d);
    assert s == y + ['-'] + (m + "-" + dd);
    CutAt(y, '-', m + "-" + dd, {'-'});
    assert m + "-" + dd == m + ['-'] + dd;
    CutAt(m, '-', dd, {'-'});
  }

  lemma ParseClockRoundTrip(d: RunDate)
    requires Valid(d)
    ensures ParseClock(ClockText(d), d.year, d.month, d.day) == Some(d)
  {
    ShortFieldOfPad(d.hour, 0, 23);
    ShortFieldOfPad(d.minute, 0, 59);
    ShortFieldOfPad(d.second, 0, 61);
    CutAt(Pad(d.hour, 2), ':', MinuteOnward(d), {':'});
    CutAt(Pad(d.minute, 2), ':', Pad(d.second, 2), {':'});
  }

  lemma ParseFromMonthRoundTrip(d: RunDate)
    requires Valid(d)
    ensures ParseFromMonth(MonthOnward(d), d.year) == Some(d)
  {
    ShortFieldOfPad(d.month, 1, 12);
    ShortFieldOfPad(d.day, 1, 31);
    CutAt(Pad(d.month, 2), '-', DayOnward(d), {'-'});
    CutAt(Pad(d.day, 2), 'T', ClockText(d), {'T', 't'});
    assert Pad(d.day, 2)[0] != ' ';
    ParseClockRoundTrip(d);
  }

  /** Every valid run date survives rendering and parsing with `%Y-%m-%dT%H:%M:%S`. */
  lemma ParseTimestampRoundTrip(d: RunDate)
    requires Valid(d)
    ensures ParseTimestamp(FormatTimestamp(d)) == Some(d)
  {
    YearFieldOfPad(d.year);
    CutAt(Pad(d.year, 4), '-', MonthOnward(d), {'-'});
    ParseFromMonthRoundTrip(d);
  }
}

=== FILE: utils.dfy ===
/** The pure helpers of shared/utils.py: time decomposition, list chunking, the hourly series of a day,
    and the run-date validator. */
module Utils {
  import opened Wrappers
  import opened Errors
  import opened Text
  import opened Decimal
  import opened Timestamps

  // ---------------------------------------------------------------------------------------------
  // convert_to_d_h_m_s and seconds_to_string

  /** `convert_to_d_h_m_s(total_seconds)` for an integer: three `divmod`s by 60, 60 and 24. Python's
      `divmod` floors, which for these positive divisors is Dafny's `/` and `%`. */
  function ConvertToDHMS(totalSeconds: int): (r: (int, int, int, int))
    ensures r.0 * 86400 + r.1 * 3600 + r.2 * 60 + r.3 == totalSeconds
    ensures 0 <= r.1 < 24 && 0 <= r.2 < 60 && 0 <= r.3 < 60
  {
    var minutes, seconds := totalSeconds / 60, totalSeconds % 60;
    var hours, minutes' := minutes / 60, minutes % 60;
    var days, hours' := hours / 24, hours % 24;
    (days, hours', minutes', seconds)
  }

  /** Floor division and remainder are the only quotient and remainder with `0 <= r < n`. */
  lemma DivModUnique(a: int, n: int, q: int, r: int)
    requires n > 0 && a == q * n + r && 0 <= r < n
    ensures a / n == q && a % n == r
  {
    var k := q - a / n;
    assert a == (a / n) * n + a % n;
    assert k * n == a % n - r;
    if k > 0 {
      MulAtLeast(k, n);
    } else if k < 0 {
      MulAtLeast(-k, n);
    }
  }

  lemma MulAtLeast(k: int, n: int)
    requires k >= 1 && n > 0
    ensures k * n >= n
  {
  }

  /** The decomposition is the only one with those bounds. */
  lemma ConvertToDHMSUnique(totalSeconds: int, d: int, h: int, m: int, s: int)
    requires d * 86400 + h * 3600 + m * 60 + s == totalSeconds
    requires 0 <= h < 24 && 0 <= m < 60 && 0 <= s < 60
    ensures ConvertToDHMS(totalSeconds) == (d, h, m, s)
  {
    var hours := d * 24 + h;
    var minutes := hours * 60 + m;
    assert totalSeconds == minutes * 60 + s;
    DivModUnique(totalSeconds, 60, minutes, s);
    DivModUnique(minutes, 60, hours, m);
    DivModUnique(hours, 24, d, h);
  }

  /** The words of `seconds_to_string`'s rendering of a decomposed duration. */
  function DurationWords(dhms: (int, int, int, int)): seq<string>
  {
    [IntToString(dhms.0), "days,", IntToString(dhms.1), "hours,", IntToString(dhms.2), "minutes,",
     IntToString(dhms.3), "seconds"]
  }

  /** `seconds_to_string`: `"{0[0]} days, {0[1]} hours, {0[2]} minutes, {0[3]} seconds"` filled with the
      decomposition, which is its eight words separated by single spaces. */
  function SecondsToString(runTime: int): string
  {
    Join(DurationWords(ConvertToDHMS(runTime)), ' ')
  }

  /** Reads a duration back from the words `seconds_to_string` writes. */
  function ParseDuration(text: string): Option<(int, int, int, int)>
  {
    var words := Split(text, ' ');
    if |words| == 8 && words[1] == "days," && words[3] == "hours," && words[5] == "minutes," && words[7] == "seconds" then
      var d :- ParseInt(words[0]);
      var h :- ParseInt(words[2]);
      var m :- ParseInt(words[4]);
      var s :- ParseInt(words[6]);
      Some((d, h, m, s))
    else None
  }

  lemma NoSpaceInNumber(i: int)
    ensures ' ' !in IntToString(i)
  {
    var digits := NatToString(if i < 0 then -i else i);
    assert forall j :: 0 <= j < |digits| ==> IsDigit(digits[j]);
    if i < 0 {
      assert IntToString(i) == "-" + digits;
    }
  }

  /** The rendered duration spells the decomposition of the input, and nothing else. */
  lemma SecondsToStringRoundTrip(runTime: int)
    ensures ParseDuration(SecondsToString(runTime)) == Some(ConvertToDHMS(runTime))
  {
    var dhms := ConvertToDHMS(runTime);
    var words := DurationWords(dhms);
    NoSpaceInNumber(dhms.0);
    NoSpaceInNumber(dhms.1);
    NoSpaceInNumber(dhms.2);
    NoSpaceInNumber(dhms.3);
    assert Separable(words, ' ');
    SplitJoin(words, ' ');
    IntToStringRoundTrip(dhms.0);
    IntToStringRoundTrip(dhms.1);
    IntToStringRoundTrip(dhms.2);
    IntToStringRoundTrip(dhms.3);
  }

  // ---------------------------------------------------------------------------------------------
  // _chunked, make_batches_from_pool, chunk_maker

  /** The concatenation of a list of lists. */
  function Flatten<T>(chunks: seq<seq<T>>): seq<T>
  {
    if |chunks| == 0 then [] else chunks[0] + Flatten(chunks[1..])
  }

  lemma {:induction false} FlattenAppend<T>(chunks: seq<seq<T>>, last: seq<T>)
    ensures Flatten(chunks + [last]) == Flatten(chunks) + last
    decreases |chunks|
  {
    if |chunks| == 0 {
      assert [last][1..] == [];
    } else {
      assert (chunks + [last])[1..] == chunks[1..] + [last];
      FlattenAppend(chunks[1..], last);
    }
  }

  /** What `_chunked(xs, n)` yields for `n > 0`: `islice` takes up to `n` items per round, and the loop
      stops at the first empty chunk. Only non-empty chunks appear, all of exactly `n` items except the
      last, so there are `ceil(len / n)` of them. */
  function Chunks<T>(xs: seq<T>, n: nat): seq<seq<T>>
    requires n > 0
    decreases |xs|
  {
    var size := if |xs| < n then |xs| else n;
    if size == 0 then [] else [xs[..size]] + Chunks(xs[size..], n)
  }

  /** The chunks concatenate back to the input. */
  lemma {:induction false} ChunksFlatten<T>(xs: seq<T>, n: nat)
    requires n > 0
    ensures Flatten(Chunks(xs, n)) == xs
    decreases |xs|
  {
    if |xs| > 0 {
      var size := if |xs| < n then |xs| else n;
      ChunksFlatten(xs[size..], n);
      assert Chunks(xs, n)[1..] == Chunks(xs[size..], n);
      assert xs == xs[..size] + xs[size..];
    }
  }

  /** Every chunk is non-empty and at most `n` long, and every chunk but the last is exactly `n` long. */
  lemma {:induction false} ChunksSizes<T>(xs: seq<T>, n: nat)
    requires n > 0
    ensures forall j :: 0 <= j < |Chunks(xs, n)| ==> 0 < |Chunks(xs, n)[j]| <= n
    ensures forall j :: 0 <= j < |Chunks(xs, n)| - 1 ==> |Chunks(xs, n)[j]| == n
    decreases |xs|
  {
    if |xs| > 0 {
      var size := if |xs| < n then |xs| else n;
      var rest := Chunks(xs[size..], n);
      ChunksSizes(xs[size..], n);
      assert Chunks(xs, n) == [xs[..size]] + rest;
      assert |rest| > 0 ==> size == n;
    }
  }

  /** There are `ceil(len / n)` chunks. */
  lemma {:induction false} ChunksCount<T>(xs: seq<T>, n: nat)
    requires n > 0
    ensures |Chunks(xs, n)| == (|xs| + n - 1) / n
    decreases |xs|
  {
    if |xs| == 0 {
      DivModUnique(n - 1, n, 0, n - 1);
    } else {
      var size := if |xs| < n then |xs| else n;
      ChunksCount(xs[size..], n);
      CeilDivStep(|xs|, n);
    }
  }

  /** Taking one chunk of `n` off `len` items leaves one chunk fewer, rounding up. */
  lemma CeilDivStep(len: nat, n: nat)
    requires n > 0 && len > 0
    ensures len <= n ==> (len + n - 1) / n == 1
    ensures len > n ==> (len + n - 1) / n == (len - n + n - 1) / n + 1
  {
    if len <= n {
      DivModUnique(len + n - 1, n, 1, len - 1);
    } else {
      var q, r := (len - 1) / n, (len - 1) % n;
      DivModUnique(len - 1, n, q, r);
      DivModUnique(len + n - 1, n, q + 1, r);
    }
  }

  /** `_chunked(iterable, n)`: `islice` refuses a negative `n`, and `n == 0` stops at once with nothing. */
  function Chunked<T>(xs: seq<T>, n: int): (r: Result<seq<seq<T>>, Error>)
    ensures n < 0 <==> r.Failure?
    ensures n < 0 ==> r.error == ValueError
    ensures n == 0 ==> r == Success([])
    ensures n > 0 ==> r.Success? && Flatten(r.value) == xs
  {
    if n < 0 then Failure(ValueError)
    else if n == 0 then Success([])
    else ChunksFlatten(xs, n); Success(Chunks(xs, n))
  }

  /** The chunks of a suffix starting at `i` are the slice `[i, i + n)` followed by the chunks after it. */
  lemma ChunksFrom<T>(xs: seq<T>, i: nat, n: nat)
    requires n > 0 && i < |xs|
    ensures i + n < |xs| ==> Chunks(xs[i..], n) == [xs[i..i + n]] + Chunks(xs[i + n..], n)
    ensures i + n >= |xs| ==> Chunks(xs[i..], n) == [xs[i..]]
  {
    var suffix := xs[i..];
    if i + n < |xs| {
      assert suffix[..n] == xs[i..i + n];
      assert suffix[n..] == xs[i + n..];
    } else {
      assert suffix[..|suffix|] == suffix;
      assert suffix[|suffix|..] == [];
    }
  }

  /** A round of `make_batches_from_pool` that stops short of the end keeps the batches so far a prefix of the
      chunking. */
  lemma BatchStep<T>(pool: seq<T>, i: nat, step: nat, batches: seq<seq<T>>)
    requires step > 0 && i + step < |pool|
    requires batches + Chunks(pool[i..], step) == Chunks(pool, step)
    ensures (batches + [pool[i..i + step]]) + Chunks(pool[i + step..], step) == Chunks(pool, step)
  {
    var rest := Chunks(pool[i + step..], step);
    assert Chunks(pool[i..], step) == [pool[i..i + step]] + rest by {
      ChunksFrom(pool, i, step);
    }
    assert (batches + [pool[i..i + step]]) + rest == batches + ([pool[i..i + step]] + rest);
  }

  /** The round that reaches the end of the pool completes the chunking. */
  lemma LastBatch<T>(pool: seq<T>, i: nat, step: nat, batches: seq<seq<T>>)
    requires step > 0 && i < |pool| <= i + step
    requires batches + Chunks(pool[i..], step) == Chunks(pool, step)
    ensures batches + [pool[i..|pool|]] == Chunks(pool, step)
  {
    assert Chunks(pool[i..], step) == [pool[i..]] by {
      ChunksFrom(pool, i, step);
    }
    assert pool[i..|pool|] == pool[i..];
  }

  /** The loop of `make_batches_from_pool` for a positive step: `pool[i:i + step]` for `i` in
      `range(0, len(pool), step)`, the last slice clipped at the end of the pool. */
  method SliceBatches<T>(pool: seq<T>, step: nat) returns (batches: seq<seq<T>>)
    requires step > 0
    ensures batches == Chunks(pool, step)
  {
    batches := [];
    var i := 0;
    assert pool[0..] == pool;
    while i < |pool|
      invariant 0 <= i
      invariant i < |pool| ==> batches + Chunks(pool[i..], step) == Chunks(pool, step)
      invariant i >= |pool| ==> batches == Chunks(pool, step)
      decreases |pool| - i
    {
      var end := if i + step < |pool| then i + step else |pool|;
      if end < |pool| {
        BatchStep(pool, i, step, batches);
      } else {
        LastBatch(pool, i, step, batches);
      }
      batches := batches + [pool[i..end]];
      i := i + step;
    }
  }

  /** `make_batches_from_pool(pool, batch_size)`: a zero step makes `range` raise; a negative one yields
      nothing; a positive one cuts the pool into consecutive batches of `batch_size`, the last one possibly
      shorter, exactly as `_chunked` does. */
  method MakeBatches<T>(pool: seq<T>, batchSize: int := 5) returns (r: Result<seq<seq<T>>, Error>)
    ensures batchSize == 0 <==> r.Failure?
    ensures batchSize == 0 ==> r.error == ValueError
    ensures batchSize < 0 ==> r == Success([])
    ensures batchSize > 0 ==> r.Success? && Flatten(r.value) == pool
    ensures batchSize > 0 ==> |r.value| == (|pool| + batchSize - 1) / batchSize
    ensures batchSize > 0 ==> forall j :: 0 <= j < |r.value| - 1 ==> |r.value[j]| == batchSize
    ensures batchSize > 0 ==> forall j :: 0 <= j < |r.value| ==> 0 < |r.value[j]| <= batchSize
    ensures batchSize > 0 ==> r == Chunked(pool, batchSize)
  {
    if batchSize == 0 {
      return Failure(ValueError);
    } else if batchSize < 0 {
      return Success([]);
    }
    var batches := SliceBatches(pool, batchSize);
    ChunksFlatten(pool, batchSize);
    ChunksSizes(pool, batchSize);
    ChunksCount(pool, batchSize);
    return Success(batches);
  }

  /** `(a + 1) * k` distributes. */
  lemma MulSucc(a: int, k: int)
    ensures (a + 1) * k == a * k + k
  {
  }

  /** With `left` full rounds still to come, a round takes a full chunk; with none, it takes the remainder. */
  lemma RoundsLeft(total: int, left: nat, size: nat, rem: nat)
    requires size > 0 && rem < size && total == left * size + rem
    ensures left >= 1 ==> total >= size && total - size == (left - 1) * size + rem
    ensures left == 0 ==> total == rem
  {
    if left >= 1 {
      MulSucc(left - 1, size);
    }
  }

  /** The loop of `chunk_maker` for a positive size: `len(data) // size + 1` rounds, each taking
      `min(remaining, size)` items, so every round but the last takes `size` items and the last takes the
      remainder, which is empty when the size divides the length. */
  method TakeRounds<T>(data: seq<T>, size: nat) returns (chunks: seq<seq<T>>)
    requires size > 0
    ensures Flatten(chunks) == data
    ensures |chunks| == |data| / size + 1
    ensures forall j :: 0 <= j < |chunks| - 1 ==> |chunks[j]| == size
    ensures |chunks[|chunks| - 1]| == |data| % size
  {
    var rounds := |data| / size + 1;
    var rem := |data| % size;
    assert |data| == (rounds - 1) * size + rem;
    var total := |data|;
    var pos := 0;
    chunks := [];
    var x := 0;
    while x < rounds
      invariant 0 <= x <= rounds
      invariant |chunks| == x
      invariant 0 <= pos <= |data| && total == |data| - pos
      invariant x < rounds ==> total == (rounds - 1 - x) * size + rem
      invariant x == rounds ==> total == 0
      invariant Flatten(chunks) == data[..pos]
      invariant forall j :: 0 <= j < x && j < rounds - 1 ==> |chunks[j]| == size
      invariant x == rounds ==> |chunks[rounds - 1]| == rem
    {
      var count := if total < size then total else size;
      RoundsLeft(total, rounds - 1 - x, size, rem);
      var chunk := data[pos..pos + count];
      FlattenAppend(chunks, chunk);
      assert data[..pos + count] == data[..pos] + chunk;
      chunks := chunks + [chunk];
      pos := pos + count;
      total := total - count;
      x := x + 1;
    }
    assert data[..pos] == data;
  }

  /** `chunk_maker(data, chunk_size)`: a zero size divides by zero. A negative size makes the round count at
      most 0 for non-empty data (floor division), and for empty data gives one round whose
      `range(min(0, chunk_size))` is empty. A positive size gives `len(data) // chunk_size + 1` chunks that
      concatenate to the data: full chunks, then the remainder. */
  method ChunkMaker<T>(data: seq<T>, chunkSize: int := 5) returns (r: Result<seq<seq<T>>, Error>)
    ensures chunkSize == 0 <==> r.Failure?
    ensures chunkSize == 0 ==> r.error == ZeroDivisionError
    ensures chunkSize < 0 ==> r == Success(if |data| == 0 then [[]] else [])
    ensures chunkSize > 0 ==> r.Success? && Flatten(r.value) == data
    ensures chunkSize > 0 ==> |r.value| == |data| / chunkSize + 1
    ensures chunkSize > 0 ==> forall j :: 0 <= j < |r.value| - 1 ==> |r.value[j]| == chunkSize
    ensures chunkSize > 0 ==> |r.value[|r.value| - 1]| == |data| % chunkSize
  {
    if chunkSize == 0 {
      return Failure(ZeroDivisionError);
    } else if chunkSize < 0 {
      return Success(if |data| == 0 then [[]] else []);
    }
    var chunks := TakeRounds(data, chunkSize);
    return Success(chunks);
  }

  /** Where the size divides the length, `_chunked` stops after the full chunks, one fewer than
      `chunk_maker`, whose last chunk is then empty. */
  lemma ChunkedDivisible<T>(data: seq<T>, n: nat)
    requires n > 0 && |data| % n == 0
    ensures |Chunks(data, n)| == |data| / n
  {
    ChunksCount(data, n);
    CeilDivExact(|data|, n);
  }

  lemma CeilDivExact(len: nat, n: nat)
    requires n > 0 && len % n == 0
    ensures (len + n - 1) / n == len / n
  {
    var q := len / n;
    assert len == q * n;
    DivModUnique(len + n - 1, n, q, n - 1);
  }

  lemma CeilDivInexact(len: nat, n: nat)
    requires n > 0 && len % n != 0
    ensures (len + n - 1) / n == len / n + 1
    ensures len - (len / n) * n == len % n
  {
    var q, rem := len / n, len % n;
    assert len == q * n + rem;
    MulSucc(q, n);
    DivModUnique(len + n - 1, n, q + 1, rem - 1);
  }

  /** Otherwise `_chunked` gives as many chunks as `chunk_maker`, and its last chunk is the same remainder. */
  lemma ChunkedRemainder<T>(data: seq<T>, n: nat)
    requires n > 0 && |data| % n != 0
    ensures |Chunks(data, n)| == |data| / n + 1
    ensures |Chunks(data, n)[|Chunks(data, n)| - 1]| == |data| % n
  {
    ChunksCount(data, n);
    CeilDivInexact(|data|, n);
    ChunksFlatten(data, n);
    ChunksSizes(data, n);
    LastChunkLength(Chunks(data, n), n);
  }

  /** When every chunk but the last holds `n` items, the last holds what the others leave. */
  lemma LastChunkLength<T>(chunks: seq<seq<T>>, n: nat)
    requires |chunks| > 0
    requires forall j :: 0 <= j < |chunks| - 1 ==> |chunks[j]| == n
    ensures |chunks[|chunks| - 1]| == |Flatten(chunks)| - (|chunks| - 1) * n
  {
    var front := chunks[..|chunks| - 1];
    assert chunks == front + [chunks[|chunks| - 1]];
    FlattenAppend(front, chunks[|chunks| - 1]);
    FlattenLength(front, n);
  }

  /** Chunks of exactly `n` items flatten to `n` items each. */
  lemma {:induction false} FlattenLength<T>(chunks: seq<seq<T>>, n: nat)
    requires forall j :: 0 <= j < |chunks| ==> |chunks[j]| == n
    ensures |Flatten(chunks)| == |chunks| * n
    decreases |chunks|
  {
    if |chunks| > 0 {
      FlattenLength(chunks[1..], n);
    }
  }

  // ---------------------------------------------------------------------------------------------
  // generate_time_series_from_day and gp_validate_date

  /** `(day + timedelta(hours=hour)).strftime("%Y-%m-%d-%H")` for a day at midnight and an hour below 24:
      the date is unchanged and the hour is appended as two digits. */
  function HourStamp(day: RunDate, hour: nat): string
  {
    FormatDay(day) + "-" + Pad(hour, 2)
  }

  /** `generate_time_series_from_day(dstr)`: the 24 hourly stamps of the day, in hour order; a string that is
      not a `%Y-%m-%d` date raises `ValueError`. */
  method TimeSeriesFromDay(dstr: string) returns (r: Result<seq<string>, Error>)
    ensures r.Failure? <==> ParseDay(dstr).None?
    ensures r.Failure? ==> r.error == TimeDataMismatch(dstr)
    ensures r.Success? ==> |r.value| == 24
    ensures r.Success? ==> forall i :: 0 <= i < 24 ==> r.value[i] == HourStamp(ParseDay(dstr).value, i)
  {
    var parsed := ParseDay(dstr);
    if parsed.None? {
      return Failure(TimeDataMismatch(dstr));
    }
    var day := parsed.value;
    var series: seq<string> := [];
    var hour := 0;
    while hour < 24
      invariant 0 <= hour <= 24
      invariant |series| == hour
      invariant forall i :: 0 <= i < hour ==> series[i] == HourStamp(day, i)
    {
      series := series + [FormatDay(day) + "-" + Pad(hour, 2)];
      hour := hour + 1;
    }
    return Success(series);
  }

  lemma NoDashInDigits(s: string)
    requires AllDigits(s)
    ensures '-' !in s
  {
    assert forall k :: 0 <= k < |s| ==> IsDigit(s[k]);
  }

  /** Each stamp splits at `-` into the padded year, month, day and hour. */
  lemma HourStampSplit(day: RunDate, hour: nat)
    ensures Split(HourStamp(day, hour), '-') == [Pad(day.year, 4), Pad(day.month, 2), Pad(day.day, 2), Pad(hour, 2)]
  {
    var y, m, d, h := Pad(day.year, 4), Pad(day.month, 2), Pad(day.day, 2), Pad(hour, 2);
    NoDashInDigits(y);
    NoDashInDigits(m);
    NoDashInDigits(d);
    NoDashInDigits(h);
    assert "-" == ['-'];
    SplitConcat(y, '-', m);
    SplitNoSeparator(y, '-');
    SplitNoSeparator(m, '-');
    SplitConcat(y + "-" + m, '-', d);
    SplitNoSeparator(d, '-');
    SplitConcat(FormatDay(day), '-', h);
    SplitNoSeparator(h, '-');
  }

  /** So the date and the hour read back from a stamp. */
  lemma HourStampReadsBack(day: RunDate, hour: nat)
    requires Valid(day) && hour < 24
    ensures var parts := Split(HourStamp(day, hour), '-');
            |parts| == 4 && (forall k :: 0 <= k < 4 ==> AllDigits(parts[k]))
            && DigitsValue(parts[0]) == day.year && DigitsValue(parts[1]) == day.month
            && DigitsValue(parts[2]) == day.day && DigitsValue(parts[3]) == hour
  {
    HourStampSplit(day, hour);
    assert DigitsValue(Pad(day.year, 4)) == day.year by {
      assert Pow10(4) == 10000;
      PadValue(day.year, 4);
    }
    assert DigitsValue(Pad(day.month, 2)) == day.month by {
      assert Pow10(2) == 100;
      PadValue(day.month, 2);
    }
    assert DigitsValue(Pad(day.day, 2)) == day.day by {
      assert Pow10(2) == 100;
      PadValue(day.day, 2);
    }
    assert DigitsValue(Pad(hour, 2)) == hour by {
      assert Pow10(2) == 100;
      PadValue(hour, 2);
    }
  }

  /** Different hours of a day give different stamps. */
  lemma HourStampsDistinct(day: RunDate, hour: nat, other: nat)
    requires Valid(day) && hour < 24 && other < 24
    ensures HourStamp(day, hour) == HourStamp(day, other) <==> hour == other
  {
    HourStampReadsBack(day, hour);
    HourStampReadsBack(day, other);
  }

  /** `gp_validate_date(date_str)`: the string itself when `strptime` accepts it with
      `%Y-%m-%dT%H:%M:%S`, otherwise `ETLException("Not a valid date: '<date_str>'.")`. */
  function ValidateDate(dateStr: string): (r: Result<string, Error>)
    ensures r.Success? <==> ParseTimestamp(dateStr).Some?
    ensures r.Success? ==> r.value == dateStr
    ensures r.Failure? ==> r.error == ETLException("Not a valid date: '" + dateStr + "'.")
  {
    if ParseTimestamp(dateStr).Some? then Success(dateStr)
    else Failure(ETLException("Not a valid date: '" + dateStr + "'."))
  }

  /** Every canonical rendering of a valid run date passes validation unchanged. */
  lemma ValidateFormattedDate(d: RunDate)
    requires Valid(d)
    ensures ValidateDate(FormatTimestamp(d)) == Success(FormatTimestamp(d))
  {
    ParseTimestampRoundTrip(d);
  }
}

=== FILE: wrappers.dfy ===
/** Failure-compatible Option and Result types used throughout the model. */
module Wrappers {

  /** Python's `None`-or-value. */
  datatype Option<+T> = None | Some(value: T) {
    predicate IsFailure() {
      None?
    }

    function PropagateFailure<U>(): Option<U>
      requires None?
    {
      None
    }

    function Extract(): T
      requires Some?
    {
      value
    }
  }

  /** A value, or the exception the source raises instead of returning one. */
  datatype Result<+T, +E> = Success(value: T) | Failure(error: E) {
    predicate IsFailure() {
      Failure?
    }

    function PropagateFailure<U>(): Result<U, E>
      requires Failure?
    {
      Failure(error)
    }

    function Extract(): T
      requires Success?
    {
      value
    }
  }
}
